=== FILE: README.md ===
# furi in Dafny

A model of `src/lib/index.ts` from furi, a small library for `file://` URIs,
with its promises proved. The library has four parts:

- `Furi`, a URL whose protocol is always `file:`. Any other protocol fails with
  `InvalidFileUri` (code `ERR_INVALID_FILE_URI`). Every pathname assignment
  collapses runs of `/`, so in the model, whose URL pathname setter leaves `\`
  alone, the pathname never holds `//`. The source's own setter can still let
  `//` through by way of `\` (see "Left out").
- The path algebra: `join`, `append`, `basename` and `parent`.
- The converters between `file:` URLs and native paths: `toPosixPath`,
  `toWindowsShortPath`, `toWindowsLongPath`, `fromPosixPath` and
  `fromWindowsPath`. Windows paths are dispatched by the two regexes
  `WINDOWS_PREFIX_REGEX` and `WINDOWS_UNC_REGEX`.
- `toSysPath` and `fromSysPath`, which choose between the converters by platform.

A URL is the record `Url(protocol, host, pathname, search, hash)`, taken as
already parsed (`IsParsed`: a `file:` URL has an absolute pathname). The URL
pathname setter is `FileUri.Rooted`: it adds the leading `/`, and `""` becomes
`/`. The JavaScript built-ins the library calls are modelled concretely:

- `String.prototype.split("/")` is `PathSegments.Split`, and `join("/")` is
  `PathSegments.Join`.
- The `/\/+/g` replacement is `Normalization.Collapse`.
- `encodeURIComponent` and `encodeURI` are `UriCodec.Encode`: UTF-8, then `%XY`
  with upper-case hex digits. The unescaped sets are those of ECMA-262.
- `decodeURIComponent` is `UriCodec.Decode`. It returns `None` for the
  `URIError` cases: a malformed escape, a bad or overlong UTF-8 sequence, a
  surrogate, or a value above U+10FFFF.

Files:

| file | module | contents |
|---|---|---|
| `wrappers.dfy` | `Wrappers` | `Option`, `Result` |
| `segments.dfy` | `PathSegments` | `split("/")`, `join("/")`, the non-empty filter, and their laws |
| `collapse.dfy` | `Normalization` | the collapse of runs of `/` and its laws |
| `codec.dfy` | `UriCodec` | the URI encoders and decoder, and the decode/encode round trip |
| `furi.dfy` | `FileUri` | `Url`, `InvalidFileUri`, the `Furi` class, `asFuri` |
| `algebra.dfy` | `PathAlgebra` | `join`, `append`, `basename`, `parent` |
| `converters.dfy` | `Converters` | the native-path converters, the two regex scanners, the platform dispatch |

## Model

| member | source | states |
|---|---|---|
| `PathSegments.Split` | src/lib/index.ts:162 | `split("/")` always gives at least one part, and no part holds a `/` |
| `PathSegments.SplitAround` | src/lib/index.ts:162-172 | splitting `a + "/" + b` gives the parts of `a` followed by those of `b` |
| `PathSegments.SplitTrailingSlash` | src/lib/index.ts:214-216 | a final `/` shows up as one more, empty, last part |
| `PathSegments.JoinSplit` | src/lib/index.ts:162-172 | `join("/")` after `split("/")` gives back the string |
| `PathSegments.SplitJoin` | src/lib/index.ts:162-172 | `split("/")` after `join("/")` gives back parts that hold no `/` |
| `PathSegments.Join` | src/lib/index.ts:172 | `Array.prototype.join("/")` (also at src/lib/index.ts:139, 220 and 276); its lemmas `JoinSplit`, `SplitJoin` and `JoinFirst` state that it inverts `split("/")` and puts a `/` between parts |
| `PathSegments.JoinFirst` | src/lib/index.ts:172 | `join("/")` starts with the first part and puts a `/` right after it when more parts follow |
| `PathSegments.NonEmpty` | src/lib/index.ts:190-192 | the non-empty filter keeps only non-empty parts of its input, never more of them |
| `PathSegments.NonEmptyConcat` | src/lib/index.ts:190-192 | filtering distributes over concatenation |
| `PathSegments.NonEmptyIdentity` | src/lib/index.ts:190-192 | the filter changes nothing exactly when no part is empty |
| `PathSegments.SegmentsTrailingSlash` | src/lib/index.ts:80-91 | adding a final `/` leaves the non-empty segments alone |
| `PathSegments.SegmentsLeadingSlash` | src/lib/index.ts:69-73 | adding a leading `/` leaves the non-empty segments alone |
| `Normalization.Collapse` | src/lib/index.ts:49-51 | the `/\/+/g` replacement leaves no `//`, never grows the string, and keeps its first and last character |
| `Normalization.CollapseIdentity` | src/lib/index.ts:69-72 | the collapse is the identity exactly on strings without `//`, so the `indexOf("//")` guard changes no result |
| `Normalization.CollapseIdempotent` | src/lib/index.ts:69-72 | collapsing twice is collapsing once |
| `Normalization.CollapseSplit` | src/lib/index.ts:49-51 | the parts of a collapsed string are the parts of the original with the inner empty ones dropped |
| `Normalization.CollapseSegments` | src/lib/index.ts:49-51 | collapsing keeps the non-empty segments, in order |
| `UriCodec.Utf8` | src/lib/index.ts:139 | a character is 1 to 4 UTF-8 bytes |
| `UriCodec.EscapeAll` | src/lib/index.ts:139 | escaping writes three characters per byte |
| `UriCodec.EncodeUri` | src/lib/index.ts:460 | `encodeURI` outputs only unreserved and reserved characters and `%`; `UriCodec.DecodeEncode` gives its inverse |
| `UriCodec.Encode` | src/lib/index.ts:460 | the encoders' output holds only unreserved characters, `%`, and (for `encodeURI`) the reserved ones |
| `UriCodec.EncodeUriComponent` | src/lib/index.ts:139 | `encodeURIComponent` never outputs a `/`, so a component of `join` is never split |
| `UriCodec.Decode` | src/lib/index.ts:340 | `decodeURIComponent` never lengthens its input; `None` is its `URIError`; `UriCodec.DecodeEncode` shows it undoes both encoders |
| `UriCodec.DecodeEscape` | src/lib/index.ts:340 | a decoded escape sequence consumes at least three characters, and no more than the input holds |
| `UriCodec.DecodeLatin1` | src/lib/index.ts:340 | `%C3%B3`, in upper- or lower-case hex, decodes to the one character `ó` |
| `UriCodec.DecodeNonBmp` | src/lib/index.ts:340 | `%F0%9D%84%9E` decodes to the one character U+1D11E |
| `UriCodec.DecodeEncode` | src/lib/index.ts:340 | `decodeURIComponent` undoes both encoders on every string |
| `UriCodec.EncodeConcat` | src/lib/index.ts:460 | encoding distributes over concatenation |
| `FileUri.InvalidFileUriError` | src/lib/index.ts:9-19 | the error keeps the input, with code `ERR_INVALID_FILE_URI`, name `TypeError [ERR_INVALID_FILE_URI]` and message `Invalid file URI: ` + input |
| `FileUri.Rooted` | src/lib/index.ts:73 | the URL pathname setter gives an absolute path, leaves an absolute one alone, keeps the last character and the segments |
| `FileUri.NormalizePathname` | src/lib/index.ts:69-74 | the `Furi` pathname setter gives an absolute path without `//`, with the same segments, and leaves such a path alone |
| `FileUri.NormalizeUrl` | src/lib/index.ts:43-52 | `new Furi(u)` (with the error class of src/lib/index.ts:9-19) fails exactly when the protocol is not `file:`; the error carries the URL string and `ERR_INVALID_FILE_URI`; otherwise only the pathname changes, to the collapse of the old one made absolute (`NormalizePathname`), which has the same segments and is the old one when that held no `//` |
| `FileUri.WithTrailingSlash` | src/lib/index.ts:80-91 | `setTrailingSlash(b)` keeps `/`; on any other pathname it adds or removes at most one final `/`, after which the marker equals `b`; the segments are kept |
| `FileUri.Furi.HasTrailingSlash` | src/lib/index.ts:76-78 | `hasTrailingSlash()` holds only for a pathname other than `/` that ends with `/`, and on a normalized pathname `setTrailingSlash(hasTrailingSlash())` changes nothing (the predicate is `FileUri.TrailingSlash`) |
| `FileUri.WithTrailingSlashStable` | src/lib/index.ts:80-91 | setting the marker twice is setting it once; setting it to its current value changes nothing |
| `FileUri.Furi.constructor` | src/lib/index.ts:43-52 | a new `Furi` is valid and holds the normalized URL |
| `FileUri.Furi.SetProtocol` | src/lib/index.ts:58-63 | the protocol setter leaves the object unchanged: only `file:` is accepted, and the protocol already is `file:` |
| `FileUri.Furi.SetPathname` | src/lib/index.ts:69-74 | every pathname assignment stores the normalized pathname and changes no other field |
| `FileUri.Furi.SetTrailingSlash` | src/lib/index.ts:80-91 | the new pathname is `WithTrailingSlash` of the old one, the object stays valid, and no other field changes |
| `FileUri.AsFuri` | src/lib/index.ts:105-111 | a fresh valid `Furi` for a `file:` URL, `InvalidFileUri` otherwise |
| `PathAlgebra.EncodeAll` | src/lib/index.ts:139 | every component is encoded on its own |
| `PathAlgebra.JoinUri` | src/lib/index.ts:133-143 | the protocol error of `asFuri`; for no components the normalized base; otherwise the base with the `join` pathname and empty search and hash |
| `PathAlgebra.EncodeUriComponentEmpty` | src/lib/index.ts:139 | a component encodes to `""` exactly when it is empty |
| `PathAlgebra.JoinLastChar` | src/lib/index.ts:139 | a join ends with the last character of its last part, or with `/` when that part is empty |
| `PathAlgebra.JoinSegments` | src/lib/index.ts:133-143 | the segments of a join are those of the base, then one per non-empty component |
| `PathAlgebra.JoinEnd` | src/lib/index.ts:139 | parts joined with `/` are empty or end with `/` exactly when the last part is empty |
| `PathAlgebra.EncodedJoinEnd` | src/lib/index.ts:139 | the encoded components, joined, are empty or end with `/` exactly when the last component is empty |
| `PathAlgebra.JoinTrailingSlash` | src/lib/index.ts:133-143 | a joined pathname other than `/` ends with `/` exactly when the last component is empty |
| `PathAlgebra.Pushed` | src/lib/index.ts:163-171 | the segments pushed by the loop hold no `/` |
| `PathAlgebra.Append` | src/lib/index.ts:155-177 | the protocol error of `asFuri`; for no paths the normalized base; otherwise the base with the `append` pathname and empty search and hash |
| `PathAlgebra.PushParts` | src/lib/index.ts:167-170 | the inner loop of `append` pushes every part of one path, and the flag ends as "the last part pushed was empty" (unchanged when there is none) |
| `PathAlgebra.PushedNext` | src/lib/index.ts:163-171 | one turn of the outer loop of `append` keeps its invariant: the segments pushed so far are `Pushed` of the paths seen, and the flag is `TrailingFlag` of them |
| `PathAlgebra.PushedStep` | src/lib/index.ts:163-171 | one more path pushes its own segments (none when it is `""`) and sets the flag from its last segment (leaves it when it is `""`) |
| `PathAlgebra.PushSegments` | src/lib/index.ts:161-171 | the loop of `append` pushes exactly `Pushed(uriPaths)` onto the base segments and ends with the flag `TrailingFlag` |
| `PathAlgebra.PushedSegments` | src/lib/index.ts:163-171 | the non-empty pushed segments are those of every path in turn |
| `PathAlgebra.AppendSegments` | src/lib/index.ts:155-177 | the segments of an appended URI are those of the base, then those of every path; `""` paths add none |
| `PathAlgebra.SplitLastEmpty` | src/lib/index.ts:167-170 | the last part of a split is empty exactly when the string ends with `/` |
| `PathAlgebra.NonEmptyLast` | src/lib/index.ts:164-166 | skipping `""` paths leaves the last non-empty path last |
| `PathAlgebra.AppendTrailingFlag` | src/lib/index.ts:161-173 | the trailing slash comes from the last non-empty path, and is the base's when every path is empty |
| `PathAlgebra.AppendEmptyPaths` | src/lib/index.ts:155-177 | when every path is `""` the pathname is the base's |
| `PathAlgebra.OnlyEmptyPaths` | src/lib/index.ts:164-166 | `""` paths push nothing and leave the flag alone |
| `PathAlgebra.Basename` | src/lib/index.ts:188-200 | the protocol error of `asFuri`; otherwise the last non-empty segment, or `""` if there is none; `ext` is stripped exactly when it is a non-empty proper suffix, and then result + `ext` is that segment; the result never holds `/` |
| `PathAlgebra.Parent` | src/lib/index.ts:211-222 | only the pathname changes, to `ParentPathname` of the old one |
| `PathAlgebra.ParentOfRoot` | src/lib/index.ts:211-222 | the parent of `/` is `/` |
| `PathAlgebra.ParentDropsSegment` | src/lib/index.ts:211-222 | the parent of `q/s` is `q`, made absolute |
| `PathAlgebra.ParentDropsMarkedSegment` | src/lib/index.ts:214-219 | the parent of `q/s/` is also `q`: the trailing separator is removed first |
| `PathAlgebra.JoinPrefix` | src/lib/index.ts:220 | joining a prefix of the parts gives a prefix of the joined string |
| `PathAlgebra.ParentIsPrefix` | src/lib/index.ts:211-222 | the parent pathname is a prefix of the pathname |
| `Converters.DecodeAll` | src/lib/index.ts:340 | decoding every part keeps their number |
| `Converters.DecodePath` | src/lib/index.ts:340 | `pathname.split("/").map(decodeURIComponent).join("/")` (also at src/lib/index.ts:276 and 281): a decoded absolute pathname keeps its leading `/`; `DecodePathPointwise` and `DecodePathEncodeUri` give its value |
| `Converters.DecodePathPointwise` | src/lib/index.ts:340 | the decoded path is `None` exactly when some segment fails to decode, and otherwise the segments, each decoded on its own, joined by `/` |
| `Converters.DecodeAllPointwise` | src/lib/index.ts:340 | `map(decodeURIComponent)` fails exactly when one part fails to decode, and otherwise its `i`-th result is the decoding of the `i`-th part, so the decoded path of the converters is the decoded parts joined by `/` |
| `Converters.ToForwardSlashes` | src/lib/index.ts:437-439 | same length; every `\` or `/` becomes `/`, every other character stays |
| `Converters.ToBackwardSlashes` | src/lib/index.ts:447-449 | same length; every `\` or `/` becomes `\`, every other character stays |
| `Converters.BackwardAfterForward` | src/lib/index.ts:437-449 | rewriting to `/` first does not change the `\` form |
| `Converters.ForwardAfterBackward` | src/lib/index.ts:437-449 | rewriting to `\` first does not change the `/` form |
| `Converters.SlashesInverse` | src/lib/index.ts:437-449 | each rewrite undoes the other on a string that holds only the separator the other one writes |
| `Converters.BackwardSlashesConcat` | src/lib/index.ts:447-449 | the rewrite to `\` works character by character, so it distributes over concatenation |
| `Converters.ToPosixPath` | src/lib/index.ts:334-341 | fails with `NonLocalHost`, carrying the URL string, exactly when the host is neither `""` nor `localhost`; otherwise it fails only with `MalformedUri` (the `URIError`), and a decoded path keeps the leading `/` |
| `Converters.FormatFileUrl` | src/lib/index.ts:458-462 | `file:` with no host, search or hash; the pathname is `encodeURI` of the path made absolute, and it decodes back to that path |
| `Converters.FromPosixPath` | src/lib/index.ts:427-429 | a `file:` URL with no host, search or hash whose absolute pathname decodes back to the path, with a `/` in front when it had none |
| `Converters.ToWindowsShortPath` | src/lib/index.ts:271-285 | fails only with `MalformedUri`; for an empty host a path without `/`; otherwise `\\host` followed by a path without `/` |
| `Converters.ToWindowsLongPath` | src/lib/index.ts:271-318 | fails exactly when the short form fails; for an empty host it is `\\?\` + the short form; otherwise `\\host` in the short form becomes `\\?\unc\host` |
| `Converters.SkipSeparators` | src/lib/index.ts:367 | the longest run of `\` or `/` from a position |
| `Converters.SkipName` | src/lib/index.ts:367 | the longest run of non-separators from a position |
| `Converters.MatchPrefix` | src/lib/index.ts:367 | `WINDOWS_PREFIX_REGEX` matches exactly when the path starts with two separators and holds a non-separator later; the match is all the leading separators, a maximal name and the separators after it |
| `Converters.MatchUnc` | src/lib/index.ts:368 | `WINDOWS_UNC_REGEX` matches exactly when the path starts with `unc` in any case, a separator and later a non-separator; the capture is a maximal name after all those separators |
| `Converters.FromWindowsPath` | src/lib/index.ts:384-413 | every form gives a `file:` URL with an absolute pathname and empty search and hash |
| `Converters.SplitEncodeUri` | src/lib/index.ts:460 | `encodeURI` keeps every `/` and escapes part by part |
| `Converters.DecodeAllEncodeUri` | src/lib/index.ts:340 | decoding the encoded parts gives the parts back |
| `Converters.DecodePathEncodeUri` | src/lib/index.ts:340 | the split-decode-join of the converters undoes `encodeURI` |
| `Converters.RootedEncodeUri` | src/lib/index.ts:458-462 | escaping a pathname and making it absolute commute |
| `Converters.PosixRoundTrip` | src/lib/index.ts:427-429 | `toPosixPath(fromPosixPath(p))` is `p`, with a `/` added in front when `p` has none |
| `Converters.DeviceUrlToShort` | src/lib/index.ts:271-278 | the URL of a device path has no host and converts back to the path with backward slashes |
| `Converters.ShortFromDecoded` | src/lib/index.ts:279-284 | with a host, the short path is `\\host` and the decoded pathname with backward slashes (an unfolding of `ToWindowsShortPath` that keeps the proofs using it small) |
| `Converters.ServerUrlToShort` | src/lib/index.ts:279-285 | a server URL converts back to `\\host\path` |
| `Converters.LongFromShort` | src/lib/index.ts:311-317 | with a host, the long path is the short one with `\\host` replaced by `\\?\unc\host` |
| `Converters.ServerUrlToLong` | src/lib/index.ts:311-317 | a server URL converts back to `\\?\unc\host\path` |
| `Converters.ShortServerMatch` | src/lib/index.ts:367 | on `\\host\path` the prefix regex captures `host` and ends where `path` starts |
| `Converters.LongPrefixMatch` | src/lib/index.ts:367 | on `\\?\tail` the prefix regex captures `?` and ends where `tail` starts |
| `Converters.UncMatchOf` | src/lib/index.ts:368 | on `unc\host\path` the UNC regex captures `host` and ends where `path` starts |
| `Converters.ServerOfMatch` | src/lib/index.ts:390-397 | a prefix match whose capture is not `?` gives the server URL of the capture and the rest of the path (an unfolding of `FromWindowsPath` that keeps the proofs using it small) |
| `Converters.ShortServerForm` | src/lib/index.ts:384-398 | `\\host\path`, with any runs of separators, names `host` and `path`; the host is stored as captured (see "Left out") |
| `Converters.LongPrefix` | src/lib/index.ts:384-413 | after `\\?\`, only the UNC regex decides the URL |
| `Converters.LongServerForm` | src/lib/index.ts:399-413 | `\\?\unc\host\path`, with `unc` in any case and any runs of separators, gives the same URL as `\\host\path`; the host is stored as captured |
| `Converters.LongDeviceForm` | src/lib/index.ts:384-405 | `\\?\X` gives the same URL as `X` when `X` is not a UNC path |
| `Converters.DeviceRoundTrip` | src/lib/index.ts:384-389 | `toWindowsShortPath(fromWindowsPath(p))` is `p` with backward slashes, for a path without a server prefix |
| `Converters.LongDeviceRoundTrip` | src/lib/index.ts:303-310 | `toWindowsLongPath(fromWindowsPath(\\?\X))` is `\\?\X` with backward slashes |
| `Converters.ServerRoundTrip` | src/lib/index.ts:279-285 | `toWindowsShortPath(fromWindowsPath(\\host\path))` is `\\host\path` with backward slashes, for a host stored as captured |
| `Converters.LongServerRoundTrip` | src/lib/index.ts:311-317 | `toWindowsLongPath` of any long UNC form is `\\?\unc\host\path` with backward slashes, for a host stored as captured |
| `Converters.ToSysPath` | src/lib/index.ts:247-253 | fails with `NonLocalHost` exactly off Windows with a host other than `""` and `localhost`; on Windows with no host a path without `/`; off Windows a decoded path keeps the leading `/` |
| `Converters.FromSysPath` | src/lib/index.ts:363-365 | a `file:` URL with an absolute pathname and no search or hash; off Windows with no host, decoding back to the path |
| `Converters.SysRoundTrip` | src/lib/index.ts:247-253 | `toSysPath(fromSysPath(p))` gives the POSIX round trip off Windows, and the device round trip, short or long, on Windows |

The code and its tests disagree in five places, and the model follows the code:

- `src/test/join.spec.ts:38-41` and `68-71` expect `join` with two empty
  components to give `file:///foo//`. The `Furi` pathname setter
  (src/lib/index.ts:69-73) collapses that to `file:///foo/`, and
  `PathAlgebra.JoinUri` gives `/foo/`.
- `src/test/windows.spec.ts:179` and `195` call `toWindowsShortPath()` and
  `toWindowsLongPath()` as methods of `Furi`. The class (src/lib/index.ts:42-92)
  has no such methods; the model has only the functions
  `Converters.ToWindowsShortPath` and `Converters.ToWindowsLongPath`.
- `src/test/posix.spec.ts:89-90` compares the result of `fromPosixPath`, a URL
  object, with a string by strict equality. The function returns a URL
  (src/lib/index.ts:427-429), and so does `Converters.FromPosixPath`.
- `src/test/posix.spec.ts:62-65` ("latin1") expects `toPosixPath` of
  `file:///f%C3%B3%C3%B3` to give `/fÃ³Ã³`, the bytes read as Latin-1.
  `decodeURIComponent` (src/lib/index.ts:340) reads them as UTF-8 and gives
  `/fóó`, which `src/test/windows.spec.ts:133-136` expects for the same bytes.
  `UriCodec.DecodeLatin1` proves that `%C3%B3` and `%c3%b3` decode to `ó`.
- `src/test/posix.spec.ts:67-70` ("non-BMP char") expects `/ð„ž` for
  `file:///%F0%9D%84%9E`; the code gives `/𝄞` (U+1D11E), and
  `UriCodec.DecodeNonBmp` proves that decoding.

## Left out

- URL parsing and serialization: the WHATWG parser, host parsing (lowercasing,
  IDNA, `localhost` becoming `""`), and the URL pathname setter's own escaping
  of `?` and `#`, dot segments, backslashes and drive letters. A URL is a parsed
  record, and the pathname setter only makes the path absolute.
  `FileUri.Href` is a canonical stand-in for the serialized URL: it always
  writes `//` and has no username, password or port. So the `input` of
  `InvalidFileUri`, and the URL in `NonLocalHost`, are that serialization, not
  the caller's raw string.
- `asWritableUrl`: a URL is a value here, so the writable copy is the value
  itself. `parent` takes and returns `Url` values, so its input is never
  changed.
- The host setter in `fromWindowsPath` (src/lib/index.ts:395, 409): the URL
  parser lowercases the host, turns `localhost` into `""`, and ignores a host it
  refuses. Here the captured name is stored as given, so `ServerRoundTrip`,
  `LongServerRoundTrip`, `ShortServerForm` and `LongServerForm` hold for that
  stored host. In the source `\\SERVER\x` comes back as `\\server\x`, and
  `\\localhost\x` as the drive path `x`.
- Strings are sequences of Unicode scalar values, not UTF-16 code units. Lone
  surrogates, and the `URIError` that `encodeURI` raises on them, do not exist
  in the model.
- `isWindows()`: the platform is the `onWindows` parameter of
  `Converters.ToSysPath` and `Converters.FromSysPath`.
- `Converters.ToPosixPath`: the `assert.fail` on a non-local host is the
  `Failure(NonLocalHost(url))` result rather than a thrown `AssertionError`.
- `Converters.ToPosixPath`, `Converters.ToWindowsShortPath`,
  `Converters.ToWindowsLongPath`, `Converters.ToSysPath`: the `URIError` that
  `decodeURIComponent` throws on a malformed escape is the result
  `Failure(MalformedUri)`, not an exception.
- `FileUri.Furi.SetPathname`: the WHATWG pathname setter turns `\` into `/` on a
  `file:` URL, after the `indexOf("//")` test of src/lib/index.ts:70. A value
  such as `/a\/b` passes the test and is stored as `/a//b`, so the source's
  `Furi` can hold `//`. The model's setter leaves `\` alone, and its pathname
  never holds `//`.
- `PathAlgebra.JoinSegments`, `PathAlgebra.JoinTrailingSlash`,
  `PathAlgebra.AppendSegments`, `PathAlgebra.AppendTrailingFlag`,
  `PathAlgebra.ParentDropsSegment`: the WHATWG setter resolves the dot segments
  `.` and `..` (also written `%2e`), so `join("file:///foo", [".."])` is
  `file:///`. The model's setter keeps them as plain segments; in the source
  these lemmas hold for names and paths without dot segments.
- `Converters.PosixRoundTrip`, `Converters.DeviceRoundTrip`,
  `Converters.LongDeviceRoundTrip`, `Converters.ServerRoundTrip`,
  `Converters.LongServerRoundTrip`, `Converters.SysRoundTrip`,
  `Converters.FormatFileUrl`, `Converters.FromPosixPath`: `encodeURI` keeps `.`,
  and the pathname setter at src/lib/index.ts:396, 410 and 460 then resolves
  `.` and `..`. So the program's own POSIX and Windows round trips fail for
  paths with dot segments: `toPosixPath(fromPosixPath("/a/../b"))` is `/b`, and
  `C:\a\..\b` comes back as `C:\b`. In the model the pathname decodes back to
  the path as given; in the source these members hold for paths without dot
  segments.
- `FileUri.AsFuri`: the `InvalidFileUri` exception is a `Failure` result.
- `Converters.FromWindowsPath`: its contract says only what every form shares.
  What each form gives is stated by `ShortServerForm`, `LongServerForm` and
  `LongDeviceForm`, and by the round-trip lemmas.
- The test files run on Node.js; `src/test/modules.spec.ts` spawns processes
  and writes files, and is not part of this model.

=== FILE: algebra.dfy ===
/**
 * Path algebra on `file:` URIs: `join`, `append`, `basename` and `parent`.
 * None of them changes its input: the input is a URL value, and `join` and
 * `append` build a new `Furi`.
 */
module PathAlgebra {
  import opened Wrappers
  import opened PathSegments
  import opened Normalization
  import opened UriCodec
  import opened FileUri

  /** `components.map(encodeURIComponent)`. */
  function EncodeAll(components: seq<string>): (r: seq<string>)
    ensures |r| == |components|
    ensures forall i :: 0 <= i < |r| ==> r[i] == EncodeUriComponent(components[i])
  {
    if components == [] then []
    else [EncodeUriComponent(components[0])] + EncodeAll(components[1..])
  }

  /** The pathname `join` gives a normalized base pathname and a non-empty list of names. */
  function JoinedPathname(base: string, components: seq<string>): string
    requires IsNormalized(base)
    requires components != []
  {
    NormalizePathname(WithTrailingSlash(base, false) + "/" + Join(EncodeAll(components)))
  }

  /**
   * `join(base, components)`: each non-empty name becomes one segment, escaped
   * on its own, so a `/` inside a name never splits it; query and fragment are
   * cleared unless the list is empty. The URL setter here keeps `.` and `..`
   * as plain segments.
   */
  method JoinUri(base: Url, components: seq<string>) returns (r: Result<Furi, InvalidFileUri>)
    requires IsParsed(base)
    ensures r.Failure? <==> base.protocol != "file:"
    ensures r.Failure? ==> r.error == NormalizeUrl(base).error
    ensures r.Success? ==> fresh(r.value) && r.value.Valid()
    ensures r.Success? && components == [] ==> r.value.ToUrl() == NormalizeUrl(base).value
    ensures r.Success? && components != [] ==>
      var b := NormalizeUrl(base).value;
      r.value.ToUrl() == b.(pathname := JoinedPathname(b.pathname, components), search := "", hash := "")
  {
    r := AsFuri(base);
    if r.Failure? || components == [] {
      return;
    }
    var result := r.value;
    result.SetTrailingSlash(false);
    result.SetPathname(result.pathname + "/" + Join(EncodeAll(components)));
    result.hash := "";
    result.search := "";
  }

  lemma EncodeUriComponentEmpty(c: string)
    ensures EncodeUriComponent(c) == "" <==> c == ""
  {
    if c != "" {
      assert |EncodeChar(c[0], false)| >= 1;
    }
  }

  /** The last character of a join is that of its last part, or the `/` before an empty last part. */
  lemma {:induction false} JoinLastChar(parts: seq<string>)
    requires |parts| >= 1
    ensures Last(parts) != "" ==> Join(parts) != "" && Join(parts)[|Join(parts)| - 1] == Last(parts)[|Last(parts)| - 1]
    ensures |parts| >= 2 && Last(parts) == "" ==> Join(parts) != "" && Join(parts)[|Join(parts)| - 1] == '/'
    decreases |parts|
  {
    if |parts| >= 2 {
      JoinLastChar(parts[1..]);
      assert Last(parts[1..]) == Last(parts);
    }
  }

  /** The segments of a joined URI: those of the base, then one per non-empty name. */
  lemma JoinSegments(base: string, components: seq<string>)
    requires IsNormalized(base) && components != []
    ensures Segments(JoinedPathname(base, components)) == Segments(base) + NonEmpty(EncodeAll(components))
  {
    var w := WithTrailingSlash(base, false);
    var e := EncodeAll(components);
    SplitJoin(e);
    SplitAround(w, Join(e));
    NonEmptyConcat(Split(w), e);
  }

  /** Parts joined are empty or end with `/` exactly when the last part, which holds no `/`, is empty. */
  lemma JoinEnd(parts: seq<string>)
    requires parts != [] && '/' !in Last(parts)
    ensures var j := Join(parts);
      (j == "" || j[|j| - 1] == '/') <==> Last(parts) == ""
  {
    JoinLastChar(parts);
    var l := Last(parts);
    if l == "" {
      if |parts| == 1 {
        assert Join(parts) == "";
      }
    } else {
      assert l[|l| - 1] in l;
    }
  }

  /** The encoded names, joined, are empty or end with `/` exactly when the last name is empty. */
  lemma EncodedJoinEnd(components: seq<string>)
    requires components != []
    ensures var j := Join(EncodeAll(components));
      (j == "" || j[|j| - 1] == '/') <==> Last(components) == ""
  {
    var e := EncodeAll(components);
    EncodeUriComponentEmpty(Last(components));
    assert Last(e) == EncodeUriComponent(Last(components));
    JoinEnd(e);
  }

  /** A joined URI ends with a `/` exactly when its last name is empty (the root aside). */
  lemma JoinTrailingSlash(base: string, components: seq<string>)
    requires IsNormalized(base) && components != []
    ensures var r := JoinedPathname(base, components);
      r != "/" ==> (TrailingSlash(r) <==> Last(components) == "")
  {
    var w := WithTrailingSlash(base, false);
    var j := Join(EncodeAll(components));
    EncodedJoinEnd(components);
    GluedEnd(w, j);
  }

  /** The last character of `w + "/" + j`: that of `j`, or the `/` when `j` is empty. */
  lemma GluedEnd(w: string, j: string)
    ensures var x := w + "/" + j;
      x != [] && x[|x| - 1] == (if j == "" then '/' else j[|j| - 1])
  {
  }

  /** The segments `append` pushes for `uriPaths`: each non-empty path split on `/`. */
  function Pushed(uriPaths: seq<string>): (r: seq<string>)
    ensures forall i :: 0 <= i < |r| ==> '/' !in r[i]
  {
    if uriPaths == [] then []
    else
      var last := uriPaths[|uriPaths| - 1];
      Pushed(uriPaths[..|uriPaths| - 1]) + (if last == "" then [] else Split(last))
  }

  /** The trailing-slash flag of `append` after `uriPaths`, starting from `flag`. */
  function TrailingFlag(flag: bool, uriPaths: seq<string>): bool
  {
    if uriPaths == [] then flag
    else
      var last := uriPaths[|uriPaths| - 1];
      if last == "" then TrailingFlag(flag, uriPaths[..|uriPaths| - 1]) else Last(Split(last)) == ""
  }

  /** The pathname `append` gives a normalized base pathname and a non-empty list of paths. */
  function AppendedPathname(base: string, uriPaths: seq<string>): string
    requires IsNormalized(base)
  {
    WithTrailingSlash(NormalizePathname(Join(Split(base) + Pushed(uriPaths))), TrailingFlag(TrailingSlash(base), uriPaths))
  }

  /**
   * `append(base, ...uriPaths)`: the segments of every path are pushed in turn
   * and the result ends with `/` when the last segment pushed was empty.
   */
  method Append(base: Url, uriPaths: seq<string>) returns (r: Result<Furi, InvalidFileUri>)
    requires IsParsed(base)
    ensures r.Failure? <==> base.protocol != "file:"
    ensures r.Failure? ==> r.error == NormalizeUrl(base).error
    ensures r.Success? ==> fresh(r.value) && r.value.Valid()
    ensures r.Success? && uriPaths == [] ==> r.value.ToUrl() == NormalizeUrl(base).value
    ensures r.Success? && uriPaths != [] ==>
      var b := NormalizeUrl(base).value;
      r.value.ToUrl() == b.(pathname := AppendedPathname(b.pathname, uriPaths), search := "", hash := "")
  {
    r := AsFuri(base);
    if r.Failure? || uriPaths == [] {
      return;
    }
    var result := r.value;
    var segments, hasTrailingSlash := PushSegments(Split(result.pathname), result.HasTrailingSlash(), uriPaths);
    result.SetPathname(Join(segments));
    result.SetTrailingSlash(hasTrailingSlash);
    result.hash := "";
    result.search := "";
  }

  /** Unfolding `Pushed` and `TrailingFlag` by one more path. */
  lemma PushedStep(flag: bool, uriPaths: seq<string>, i: nat)
    requires i < |uriPaths|
    ensures var done := uriPaths[..i + 1];
      && Pushed(done) == Pushed(uriPaths[..i]) + (if uriPaths[i] == "" then [] else Split(uriPaths[i]))
      && TrailingFlag(flag, done) ==
         if uriPaths[i] == "" then TrailingFlag(flag, uriPaths[..i]) else Last(Split(uriPaths[i])) == ""
  {
    var done := uriPaths[..i + 1];
    assert done[..i] == uriPaths[..i] && done[i] == uriPaths[i];
  }

  /** One turn of the loop of `append` keeps its invariant. */
  lemma PushedNext(start: seq<string>, flag: bool, uriPaths: seq<string>, i: nat,
                   segments: seq<string>, hasTrailingSlash: bool, next: seq<string>, nextFlag: bool)
    requires i < |uriPaths|
    requires segments == start + Pushed(uriPaths[..i]) && hasTrailingSlash == TrailingFlag(flag, uriPaths[..i])
    requires uriPaths[i] == "" ==> next == segments && nextFlag == hasTrailingSlash
    requires uriPaths[i] != "" ==>
      next == segments + Split(uriPaths[i]) && nextFlag == (Last(Split(uriPaths[i])) == "")
    ensures next == start + Pushed(uriPaths[..i + 1]) && nextFlag == TrailingFlag(flag, uriPaths[..i + 1])
  {
    PushedStep(flag, uriPaths, i);
    if uriPaths[i] != "" {
      assert next == start + (Pushed(uriPaths[..i]) + Split(uriPaths[i]));
    }
  }

  /**
   * The loop of `append`: the segments of every non-empty path are pushed onto
   * `start`, and the flag records whether the last segment pushed was empty.
   */
  method PushSegments(start: seq<string>, flag: bool, uriPaths: seq<string>)
    returns (segments: seq<string>, hasTrailingSlash: bool)
    ensures segments == start + Pushed(uriPaths)
    ensures hasTrailingSlash == TrailingFlag(flag, uriPaths)
  {
    segments, hasTrailingSlash := start, flag;
    var i := 0;
    while i < |uriPaths|
      invariant 0 <= i <= |uriPaths|
      invariant segments == start + Pushed(uriPaths[..i])
      invariant hasTrailingSlash == TrailingFlag(flag, uriPaths[..i])
    {
      var uriPath := uriPaths[i];
      var next, nextFlag := segments, hasTrailingSlash;
      if uriPath != "" {
        next, nextFlag := PushParts(segments, hasTrailingSlash, Split(uriPath));
      }
      PushedNext(start, flag, uriPaths, i, segments, hasTrailingSlash, next, nextFlag);
      segments, hasTrailingSlash := next, nextFlag;
      i := i + 1;
    }
    assert uriPaths[..i] == uriPaths;
  }

  /** The inner loop of `append`: push each part, remembering whether the last one was empty. */
  method PushParts(start: seq<string>, flag: bool, parts: seq<string>)
    returns (segments: seq<string>, hasTrailingSlash: bool)
    ensures segments == start + parts
    ensures hasTrailingSlash == if parts == [] then flag else Last(parts) == ""
  {
    segments, hasTrailingSlash := start, flag;
    var j := 0;
    while j < |parts|
      invariant 0 <= j <= |parts|
      invariant segments == start + parts[..j]
      invariant hasTrailingSlash == if j == 0 then flag else parts[j - 1] == ""
    {
      segments := segments + [parts[j]];
      hasTrailingSlash := parts[j] == "";
      j := j + 1;
      assert parts[..j] == parts[..j - 1] + [parts[j - 1]];
    }
    assert parts[..j] == parts;
  }

  /** The segments of every path, in order. */
  function AllSegments(uriPaths: seq<string>): seq<string>
  {
    if uriPaths == [] then [] else AllSegments(uriPaths[..|uriPaths| - 1]) + Segments(uriPaths[|uriPaths| - 1])
  }

  lemma {:induction false} PushedSegments(uriPaths: seq<string>)
    ensures NonEmpty(Pushed(uriPaths)) == AllSegments(uriPaths)
    decreases |uriPaths|
  {
    if uriPaths != [] {
      var init := uriPaths[..|uriPaths| - 1];
      var last := uriPaths[|uriPaths| - 1];
      PushedSegments(init);
      NonEmptyConcat(Pushed(init), if last == "" then [] else Split(last));
    }
  }

  /** The segments of an appended URI: those of the base, then those of every path in turn. */
  lemma AppendSegments(base: string, uriPaths: seq<string>)
    requires IsNormalized(base)
    ensures Segments(AppendedPathname(base, uriPaths)) == Segments(base) + AllSegments(uriPaths)
  {
    var parts := Split(base) + Pushed(uriPaths);
    SplitJoin(parts);
    NonEmptyConcat(Split(base), Pushed(uriPaths));
    PushedSegments(uriPaths);
  }

  /** The last part of a split is empty exactly when the string ends with `/`. */
  lemma {:induction false} SplitLastEmpty(p: string)
    requires p != ""
    ensures Last(Split(p)) == "" <==> p[|p| - 1] == '/'
    decreases |p|
  {
    if |p| > 1 {
      SplitLastEmpty(p[1..]);
      var t := Split(p[1..]);
      if p[0] != '/' && |t| == 1 {
        JoinSplit(p[1..]);
      }
    }
  }

  lemma {:induction false} NonEmptyLast(ps: seq<string>)
    requires ps != []
    ensures Last(ps) != "" ==> NonEmpty(ps) != [] && Last(NonEmpty(ps)) == Last(ps)
    ensures Last(ps) == "" ==> NonEmpty(ps) == NonEmpty(ps[..|ps| - 1])
  {
    var init := ps[..|ps| - 1];
    assert ps == init + [Last(ps)];
    NonEmptyConcat(init, [Last(ps)]);
  }

  /**
   * The flag `append` ends with is that of the last non-empty path (ending
   * with `/`), or the base's flag when every path is empty.
   */
  lemma {:induction false} AppendTrailingFlag(flag: bool, uriPaths: seq<string>)
    ensures var ne := NonEmpty(uriPaths);
      TrailingFlag(flag, uriPaths) == if ne == [] then flag else Last(ne)[|Last(ne)| - 1] == '/'
    decreases |uriPaths|
  {
    if uriPaths != [] {
      var last := uriPaths[|uriPaths| - 1];
      NonEmptyLast(uriPaths);
      if last == "" {
        AppendTrailingFlag(flag, uriPaths[..|uriPaths| - 1]);
      } else {
        SplitLastEmpty(last);
      }
    }
  }

  /** When every path is empty the pathname is the base's. */
  lemma {:induction false} AppendEmptyPaths(base: string, uriPaths: seq<string>)
    requires IsNormalized(base)
    requires forall i :: 0 <= i < |uriPaths| ==> uriPaths[i] == ""
    ensures AppendedPathname(base, uriPaths) == base
    decreases |uriPaths|
  {
    assert Pushed(uriPaths) == [] && TrailingFlag(TrailingSlash(base), uriPaths) == TrailingSlash(base) by {
      OnlyEmptyPaths(TrailingSlash(base), uriPaths);
    }
    assert Split(base) + [] == Split(base);
    JoinSplit(base);
    WithTrailingSlashStable(base, TrailingSlash(base));
  }

  lemma {:induction false} OnlyEmptyPaths(flag: bool, uriPaths: seq<string>)
    requires forall i :: 0 <= i < |uriPaths| ==> uriPaths[i] == ""
    ensures Pushed(uriPaths) == [] && TrailingFlag(flag, uriPaths) == flag
    decreases |uriPaths|
  {
    if uriPaths != [] {
      OnlyEmptyPaths(flag, uriPaths[..|uriPaths| - 1]);
    }
  }

  /** `s.endsWith(suffix)`. */
  predicate EndsWith(s: string, suffix: string)
  {
    |suffix| <= |s| && s[|s| - |suffix|..] == suffix
  }
  /** `name` with `ext` removed when `ext` is a proper, non-empty suffix of it. */
  function StripExtension(name: string, ext: Option<string>): string
  {
    if ext.Some? && 0 < |ext.value| < |name| && EndsWith(name, ext.value)
    then name[..|name| - |ext.value|]
    else name
  }

  /**
   * `basename(furi, ext)`: the last non-empty segment ("" when there is none),
   * less `ext` when `ext` is a non-empty proper suffix of it.
   */
  function Basename(furi: Url, ext: Option<string>): (r: Result<string, InvalidFileUri>)
    requires IsParsed(furi)
    ensures r.Failure? <==> furi.protocol != "file:"
    ensures r.Failure? ==> r.error == NormalizeUrl(furi).error
    ensures r.Success? ==> '/' !in r.value
    ensures r.Success? && Segments(furi.pathname) == [] ==> r.value == ""
    ensures r.Success? && Segments(furi.pathname) != [] ==>
      var name := Last(Segments(furi.pathname));
      if ext.Some? && 0 < |ext.value| < |name| && EndsWith(name, ext.value)
      then r.value + ext.value == name && |r.value| > 0
      else r.value == name
  {
    match NormalizeUrl(furi)
    case Failure(e) => Failure(e)
    case Success(u) =>
      var components := Segments(u.pathname);
      var name := if components == [] then "" else Last(components);
      assert components != [] ==> '/' !in name by {
        if components != [] {
          assert name in Split(u.pathname);
        }
      }
      var r := StripExtension(name, ext);
      assert r + name[|r|..] == name;
      Success(r)
  }

  /** The pathname `parent` gives: drop one empty last segment if there is one, then one segment. */
  function ParentPathname(p: string): string
  {
    var parts := Split(p);
    var trimmed := if Last(parts) == "" then parts[..|parts| - 1] else parts;
    var popped := if trimmed == [] then [] else trimmed[..|trimmed| - 1];
    Rooted(Join(popped))
  }

  /**
   * `parent(input)`: the URL one segment up. It works on a plain copy of the
   * input: no protocol check and no collapse of `//`. The method runs the
   * source's two `pop` calls; `ParentPathname` is their specification.
   */
  method Parent(input: Url) returns (r: Url)
    ensures r == input.(pathname := ParentPathname(input.pathname))
  {
    var components := Split(input.pathname);
    if components[|components| - 1] == "" {
      components := components[..|components| - 1];
    }
    if components != [] {
      components := components[..|components| - 1];
    }
    r := input.(pathname := Rooted(Join(components)));
  }

  /** The root is its own parent. */
  lemma ParentOfRoot()
    ensures ParentPathname("/") == "/"
  {
    var parts := Split("/");
    assert parts == ["", ""] by {
      assert "/"[1..] == "";
    }
    assert Last(parts) == "" && parts[..|parts| - 1] == [""];
    assert [""][..0] == [] && Join([]) == "";
  }

  lemma ParentOfSplit(p: string, init: seq<string>, s: string, marked: bool)
    requires s != "" || marked
    requires Split(p) == if marked then init + [s, ""] else init + [s]
    ensures ParentPathname(p) == Rooted(Join(init))
  {
    var parts := Split(p);
    var trimmed := if Last(parts) == "" then parts[..|parts| - 1] else parts;
    if marked {
      assert Last(parts) == "";
      assert parts[..|parts| - 1] == init + [s];
    } else {
      assert Last(parts) == s;
    }
    assert trimmed == init + [s];
    assert trimmed[..|trimmed| - 1] == init;
  }

  /** Going up from `q/s` leads to `q`, for a last segment `s` that is not empty. */
  lemma ParentDropsSegment(q: string, s: string)
    requires s != "" && '/' !in s
    ensures ParentPathname(q + "/" + s) == Rooted(q)
  {
    SplitAround(q, s);
    SplitWithoutSlash(s);
    JoinSplit(q);
    ParentOfSplit(q + "/" + s, Split(q), s, false);
  }

  /** Going up from `q/s/` also leads to `q`: the marker goes first, then `s`; so `q//` leads to `q`. */
  lemma ParentDropsMarkedSegment(q: string, s: string)
    requires '/' !in s
    ensures ParentPathname(q + "/" + s + "/") == Rooted(q)
  {
    SplitAround(q, s + "/");
    assert q + "/" + (s + "/") == q + "/" + s + "/";
    SplitTrailingSlash(s);
    SplitWithoutSlash(s);
    JoinSplit(q);
    assert Split(q) + ([s] + [""]) == Split(q) + [s, ""];
    ParentOfSplit(q + "/" + s + "/", Split(q), s, true);
  }

  lemma {:induction false} JoinPrefix(parts: seq<string>, k: nat)
    requires k <= |parts|
    ensures Join(parts[..k]) <= Join(parts)
    decreases |parts|
  {
    if k > 1 {
      JoinPrefix(parts[1..], k - 1);
      assert parts[..k][1..] == parts[1..][..k - 1];
      var a := Join(parts[1..][..k - 1]);
      var b := Join(parts[1..]);
      assert parts[0] + "/" + a <= parts[0] + "/" + b;
    } else if k == 1 && |parts| > 1 {
      assert parts[..1] == [parts[0]];
      assert Join(parts) == parts[0] + ("/" + Join(parts[1..]));
    }
  }

  /** The parent's pathname is a prefix of an absolute pathname. */
  lemma ParentIsPrefix(p: string)
    requires IsAbsolutePath(p)
    ensures ParentPathname(p) <= p
  {
    var parts := Split(p);
    JoinSplit(p);
    var trimmed := if Last(parts) == "" then parts[..|parts| - 1] else parts;
    var popped := if trimmed == [] then [] else trimmed[..|trimmed| - 1];
    assert popped == parts[..|popped|];
    JoinPrefix(parts, |popped|);
    var j := Join(popped);
    assert j != "" ==> j[0] == p[0];
  }
}

=== FILE: codec.dfy ===
/**
 * The URI percent-encoding used by the path functions: JavaScript's
 * `encodeURIComponent`, `encodeURI` and `decodeURIComponent` (ECMAScript,
 * section 19.2.6 "URI Handling Functions"), over Unicode scalar values.
 * A character outside the unescaped set is written as the `%XY` escapes of
 * its UTF-8 bytes, with upper-case hexadecimal digits.
 */
module UriCodec {
  import opened Wrappers

  type Byte = b: int | 0 <= b < 256

  /** `uriUnreserved`: letters, digits and `-_.!~*'()`; no encoder escapes them. */
  predicate IsUnreserved(c: char)
  {
    ('a' <= c <= 'z') || ('A' <= c <= 'Z') || ('0' <= c <= '9') ||
    c == '-' || c == '_' || c == '.' || c == '!' || c == '~' || c == '*' || c == '\'' || c == '(' || c == ')'
  }

  /** `uriReserved` and `#`: `encodeURI` leaves them, `encodeURIComponent` escapes them. */
  predicate IsReserved(c: char)
  {
    c == ';' || c == '/' || c == '?' || c == ':' || c == '@' || c == '&' ||
    c == '=' || c == '+' || c == '$' || c == ',' || c == '#'
  }

  /** The upper-case hexadecimal digit of `d`. */
  function HexDigit(d: int): (c: char)
    requires 0 <= d < 16
  {
    if d < 10 then ('0' as int + d) as char else ('A' as int + d - 10) as char
  }

  predicate IsHex(c: char)
  {
    ('0' <= c <= '9') || ('A' <= c <= 'F') || ('a' <= c <= 'f')
  }

  /** The value of a hexadecimal digit of either case. */
  function HexValue(c: char): (d: int)
    requires IsHex(c)
    ensures 0 <= d < 16
  {
    if c <= '9' then c as int - '0' as int
    else if c <= 'F' then c as int - 'A' as int + 10
    else c as int - 'a' as int + 10
  }

  /** The UTF-8 bytes of a scalar value. */
  function Utf8(c: char): (bytes: seq<Byte>)
    ensures 1 <= |bytes| <= 4
  {
    var n := c as int;
    if n < 0x80 then [n]
    else if n < 0x800 then [0xC0 + n / 64, 0x80 + n % 64]
    else if n < 0x10000 then [0xE0 + n / 4096, 0x80 + (n / 64) % 64, 0x80 + n % 64]
    else [0xF0 + n / 262144, 0x80 + (n / 4096) % 64, 0x80 + (n / 64) % 64, 0x80 + n % 64]
  }

  /** `%XY` for one byte. */
  function Escape(b: Byte): string
  {
    ['%', HexDigit(b / 16), HexDigit(b % 16)]
  }

  function EscapeAll(bytes: seq<Byte>): (s: string)
    ensures |s| == 3 * |bytes|
  {
    if bytes == [] then "" else Escape(bytes[0]) + EscapeAll(bytes[1..])
  }

  /** One character as either encoder writes it; `keepReserved` selects `encodeURI`. */
  function EncodeChar(c: char, keepReserved: bool): string
  {
    if IsUnreserved(c) || (keepReserved && IsReserved(c)) then [c] else EscapeAll(Utf8(c))
  }

  /**
   * The encoders' output: every character is unescaped, a kept reserved
   * character, a `%`, or an upper-case hexadecimal digit.
   */
  predicate IsEncoded(s: string, keepReserved: bool)
  {
    forall i :: 0 <= i < |s| ==>
      IsUnreserved(s[i]) || (keepReserved && IsReserved(s[i])) || s[i] == '%'
  }

  lemma {:induction false} EscapeAllEncoded(bytes: seq<Byte>, keepReserved: bool)
    ensures IsEncoded(EscapeAll(bytes), keepReserved)
    decreases |bytes|
  {
    if bytes != [] {
      EscapeAllEncoded(bytes[1..], keepReserved);
      var e := Escape(bytes[0]);
      assert IsEncoded(e, keepReserved);
    }
  }

  function Encode(s: string, keepReserved: bool): (r: string)
    ensures IsEncoded(r, keepReserved)
    decreases |s|
  {
    if s == [] then ""
    else
      EscapeAllEncoded(Utf8(s[0]), keepReserved);
      EncodeChar(s[0], keepReserved) + Encode(s[1..], keepReserved)
  }

  /** `encodeURIComponent(s)`: the result never holds a `/`, so it is always a single segment. */
  function EncodeUriComponent(s: string): (r: string)
    ensures '/' !in r
  {
    var r := Encode(s, false);
    assert forall i :: 0 <= i < |r| ==> r[i] != '/';
    r
  }

  /** `encodeURI(s)`: `/` and the other reserved characters stay as they are. */
  function EncodeUri(s: string): (r: string)
    ensures IsEncoded(r, true)
  {
    Encode(s, true)
  }

  /** The byte written as `%XY` at position `i` of `s`, if there is one. */
  function EscapedByte(s: string, i: nat): Option<Byte>
  {
    if i + 3 <= |s| && s[i] == '%' && IsHex(s[i + 1]) && IsHex(s[i + 2])
    then Some(HexValue(s[i + 1]) * 16 + HexValue(s[i + 2]))
    else None
  }

  /** The low six bits of an escaped UTF-8 continuation byte (`10xxxxxx`) at position `i`. */
  function ContinuationAt(s: string, i: nat): Option<int>
  {
    match EscapedByte(s, i)
    case None => None
    case Some(b) => if 0x80 <= b < 0xC0 then Some(b - 0x80) else None
  }

  /** The number of bytes a sequence starting with `b` has; 0 when `b` cannot start one. */
  function Utf8Length(b: Byte): nat
  {
    if b < 0x80 then 1
    else if b < 0xC0 then 0
    else if b < 0xE0 then 2
    else if b < 0xF0 then 3
    else if b < 0xF8 then 4
    else 0
  }

  /** The scalar value `v` when it is a shortest-form UTF-8 decoding (at least `least`). */
  function Scalar(v: int, least: int, consumed: nat): Option<(char, nat)>
  {
    if 0 <= least <= v <= 0x10FFFF && !(0xD800 <= v < 0xE000) then Some((v as char, consumed)) else None
  }

  /**
   * The character written by the escapes at the start of `s`, with the number
   * of characters they take; `None` is the `URIError` of a malformed escape,
   * a malformed or overlong UTF-8 sequence, or a surrogate.
   */
  function DecodeEscape(s: string): (r: Option<(char, nat)>)
    ensures r.Some? ==> 3 <= r.value.1 <= |s|
  {
    match EscapedByte(s, 0)
    case None => None
    case Some(b0) =>
      var n := Utf8Length(b0);
      if n == 1 then Some((b0 as char, 3))
      else if n == 2 then
        match ContinuationAt(s, 3)
        case None => None
        case Some(c1) => Scalar((b0 - 0xC0) * 64 + c1, 0x80, 6)
      else if n == 3 then
        match (ContinuationAt(s, 3), ContinuationAt(s, 6))
        case (Some(c1), Some(c2)) => Scalar((b0 - 0xE0) * 4096 + c1 * 64 + c2, 0x800, 9)
        case _ => None
      else if n == 4 then
        match (ContinuationAt(s, 3), ContinuationAt(s, 6), ContinuationAt(s, 9))
        case (Some(c1), Some(c2), Some(c3)) =>
          Scalar((b0 - 0xF0) * 262144 + c1 * 4096 + c2 * 64 + c3, 0x10000, 12)
        case _ => None
      else None
  }

  /** `decodeURIComponent(s)`; `None` is the `URIError` it throws. */
  function Decode(s: string): (r: Option<string>)
    ensures r.Some? ==> |r.value| <= |s|
    decreases |s|
  {
    if s == [] then Some("")
    else if s[0] != '%' then
      match Decode(s[1..])
      case None => None
      case Some(t) => Some([s[0]] + t)
    else
      match DecodeEscape(s)
      case None => None
      case Some((c, k)) =>
        match Decode(s[k..])
        case None => None
        case Some(t) => Some([c] + t)
  }

  lemma HexRoundTrip(b: Byte)
    ensures IsHex(HexDigit(b / 16)) && IsHex(HexDigit(b % 16))
    ensures HexValue(HexDigit(b / 16)) * 16 + HexValue(HexDigit(b % 16)) == b
  {
  }

  lemma EscapedByteAt(e: string, rest: string, b: Byte, i: nat)
    requires i + 3 <= |e| && e[i..i + 3] == Escape(b)
    ensures EscapedByte(e + rest, i) == Some(b)
  {
    HexRoundTrip(b);
    assert (e + rest)[i] == e[i] && (e + rest)[i + 1] == e[i + 1] && (e + rest)[i + 2] == e[i + 2];
  }

  lemma EscapeAllAt(bytes: seq<Byte>, j: nat)
    requires j < |bytes|
    ensures EscapeAll(bytes)[3 * j..3 * j + 3] == Escape(bytes[j])
    decreases j
  {
    if j > 0 {
      EscapeAllAt(bytes[1..], j - 1);
      assert EscapeAll(bytes) == Escape(bytes[0]) + EscapeAll(bytes[1..]);
      assert EscapeAll(bytes)[3 * j..3 * j + 3] == EscapeAll(bytes[1..])[3 * (j - 1)..3 * (j - 1) + 3];
    }
  }

  lemma ByteAt(c: char, rest: string, j: nat)
    requires j < |Utf8(c)|
    ensures EscapedByte(EscapeAll(Utf8(c)) + rest, 3 * j) == Some(Utf8(c)[j])
  {
    EscapeAllAt(Utf8(c), j);
    EscapedByteAt(EscapeAll(Utf8(c)), rest, Utf8(c)[j], 3 * j);
  }

  lemma DecodeEscapeOneByte(c: char, rest: string)
    requires c as int < 0x80
    ensures DecodeEscape(EscapeAll(Utf8(c)) + rest) == Some((c, 3))
  {
    ByteAt(c, rest, 0);
  }

  lemma DecodeEscapeTwoBytes(c: char, rest: string)
    requires 0x80 <= c as int < 0x800
    ensures DecodeEscape(EscapeAll(Utf8(c)) + rest) == Some((c, 6))
  {
    var s := EscapeAll(Utf8(c)) + rest;
    var n := c as int;
    ByteAt(c, rest, 0);
    ByteAt(c, rest, 1);
    assert Utf8Length(0xC0 + n / 64) == 2;
    assert ContinuationAt(s, 3) == Some(n % 64);
    assert (n / 64) * 64 + n % 64 == n;
  }

  lemma DecodeEscapeThreeBytes(c: char, rest: string)
    requires 0x800 <= c as int < 0x10000
    ensures DecodeEscape(EscapeAll(Utf8(c)) + rest) == Some((c, 9))
  {
    var s := EscapeAll(Utf8(c)) + rest;
    var n := c as int;
    ByteAt(c, rest, 0);
    ByteAt(c, rest, 1);
    ByteAt(c, rest, 2);
    assert Utf8Length(0xE0 + n / 4096) == 3;
    assert ContinuationAt(s, 3) == Some((n / 64) % 64);
    assert ContinuationAt(s, 6) == Some(n % 64);
    ThreeByteSum(n);
  }

  lemma ThreeByteSum(n: int)
    requires 0 <= n
    ensures (n / 4096) * 4096 + ((n / 64) % 64) * 64 + n % 64 == n
  {
    assert n / 64 == (n / 4096) * 64 + (n / 64) % 64;
    assert n == (n / 64) * 64 + n % 64;
  }

  lemma FourByteSum(n: int)
    requires 0 <= n
    ensures (n / 262144) * 262144 + ((n / 4096) % 64) * 4096 + ((n / 64) % 64) * 64 + n % 64 == n
  {
    assert n / 4096 == (n / 262144) * 64 + (n / 4096) % 64;
    ThreeByteSum(n);
  }

  lemma DecodeEscapeFourBytes(c: char, rest: string)
    requires 0x10000 <= c as int
    ensures DecodeEscape(EscapeAll(Utf8(c)) + rest) == Some((c, 12))
  {
    var s := EscapeAll(Utf8(c)) + rest;
    var n := c as int;
    ByteAt(c, rest, 0);
    ByteAt(c, rest, 1);
    ByteAt(c, rest, 2);
    ByteAt(c, rest, 3);
    assert Utf8Length(0xF0 + n / 262144) == 4;
    assert ContinuationAt(s, 3) == Some((n / 4096) % 64);
    assert ContinuationAt(s, 6) == Some((n / 64) % 64);
    assert ContinuationAt(s, 9) == Some(n % 64);
    FourByteSum(n);
  }

  /** The escapes of a character's UTF-8 bytes decode to that character, whatever follows. */
  lemma DecodeEscapeOfUtf8(c: char, rest: string)
    ensures DecodeEscape(EscapeAll(Utf8(c)) + rest) == Some((c, 3 * |Utf8(c)|))
  {
    var n := c as int;
    if n < 0x80 {
      DecodeEscapeOneByte(c, rest);
    } else if n < 0x800 {
      DecodeEscapeTwoBytes(c, rest);
    } else if n < 0x10000 {
      DecodeEscapeThreeBytes(c, rest);
    } else {
      DecodeEscapeFourBytes(c, rest);
    }
  }

  lemma DecodeEncodedChar(c: char, keepReserved: bool, rest: string, t: string)
    requires Decode(rest) == Some(t)
    ensures Decode(EncodeChar(c, keepReserved) + rest) == Some([c] + t)
  {
    var e := EncodeChar(c, keepReserved);
    if IsUnreserved(c) || (keepReserved && IsReserved(c)) {
      assert (e + rest)[1..] == rest;
    } else {
      DecodeEscapeOfUtf8(c, rest);
      assert (e + rest)[0] == '%';
      assert (e + rest)[|e|..] == rest;
    }
  }

  /** Decoding undoes either encoder. */
  lemma {:induction false} DecodeEncode(s: string, keepReserved: bool)
    ensures Decode(Encode(s, keepReserved)) == Some(s)
    decreases |s|
  {
    if s != [] {
      DecodeEncode(s[1..], keepReserved);
      DecodeEncodedChar(s[0], keepReserved, Encode(s[1..], keepReserved), s[1..]);
      assert [s[0]] + s[1..] == s;
    }
  }

  /** The encoders work character by character. */
  /** Two escapes of one UTF-8 sequence decode to one character, in either case of hex digit. */
  lemma DecodeLatin1()
    ensures Decode("%C3%B3") == Some("\U{F3}")
    ensures Decode("%c3%b3") == Some("\U{F3}")
  {
    assert ['\U{F3}'] + "" == "\U{F3}";
  }

  /** Four escapes of one UTF-8 sequence decode to one character outside the Basic Multilingual Plane. */
  lemma DecodeNonBmp()
    ensures Decode("%F0%9D%84%9E") == Some("\U{1D11E}")
  {
    assert ['\U{1D11E}'] + "" == "\U{1D11E}";
  }

  lemma {:induction false} EncodeConcat(a: string, b: string, keepReserved: bool)
    ensures Encode(a + b, keepReserved) == Encode(a, keepReserved) + Encode(b, keepReserved)
    decreases |a|
  {
    if a == [] {
      assert a + b == b;
    } else {
      assert (a + b)[0] == a[0] && (a + b)[1..] == a[1..] + b;
      EncodeConcat(a[1..], b, keepReserved);
    }
  }
}

=== FILE: collapse.dfy ===
/**
 * Normalization of a pathname: `value.replace(/\/+/g, "/")`, which turns
 * every run of `/` into a single `/`.
 */
module Normalization {
  import opened PathSegments

  /** No two consecutive `/` (the `indexOf("//") < 0` test). */
  predicate NoDoubleSlash(s: string)
  {
    forall i :: 0 <= i < |s| - 1 ==> s[i] != '/' || s[i + 1] != '/'
  }

  /** `s.replace(/\/+/g, "/")`: keeps the first and the last character and leaves no `//`. */
  function Collapse(s: string): (r: string)
    ensures |r| <= |s|
    ensures NoDoubleSlash(r)
    ensures s != [] ==> r != [] && r[0] == s[0] && r[|r| - 1] == s[|s| - 1]
    decreases |s|
  {
    if |s| <= 1 then s
    else if s[0] == '/' && s[1] == '/' then Collapse(s[1..])
    else [s[0]] + Collapse(s[1..])
  }

  /**
   * The parts of a split list, with its empty inner parts removed: the first and
   * the last part stay even when empty (they mark a leading and a trailing `/`).
   */
  function KeepEnds(parts: seq<string>): seq<string>
  {
    if |parts| < 2 then parts
    else [parts[0]] + NonEmpty(parts[1..|parts| - 1]) + [parts[|parts| - 1]]
  }

  /** The collapse changes exactly the strings that hold a `//`. */
  lemma {:induction false} CollapseIdentity(s: string)
    ensures Collapse(s) == s <==> NoDoubleSlash(s)
    decreases |s|
  {
    if |s| > 1 {
      CollapseIdentity(s[1..]);
      if NoDoubleSlash(s) {
        assert NoDoubleSlash(s[1..]);
      }
    }
  }

  lemma CollapseIdempotent(s: string)
    ensures Collapse(Collapse(s)) == Collapse(s)
  {
    CollapseIdentity(Collapse(s));
  }

  /** `KeepEnds` of a list of at least two parts, spelled out. */
  lemma KeepEndsOf(parts: seq<string>, first: string, mid: seq<string>, last: string)
    requires parts == [first] + mid + [last]
    ensures KeepEnds(parts) == [first] + NonEmpty(mid) + [last]
  {
    assert parts[1..|parts| - 1] == mid;
  }

  lemma KeepEndsDropsEmptyHead(t: seq<string>)
    requires |t| >= 2 && t[0] == ""
    ensures KeepEnds([""] + t) == KeepEnds(t)
  {
    var n := |t|;
    var mid := t[1..n - 1];
    assert t == [""] + mid + [t[n - 1]];
    KeepEndsOf(t, "", mid, t[n - 1]);
    assert [""] + t == [""] + ([""] + mid) + [t[n - 1]];
    KeepEndsOf([""] + t, "", [""] + mid, t[n - 1]);
    NonEmptyConcat([""], mid);
    assert NonEmpty([""]) == [];
  }

  lemma KeepEndsKeepsHead(t: seq<string>)
    requires |t| >= 1 && (|t| == 1 || t[0] != "")
    ensures KeepEnds([""] + t) == [""] + KeepEnds(t)
  {
    var n := |t|;
    if n == 1 {
      assert [""] + t == [""] + [] + [t[0]];
      KeepEndsOf([""] + t, "", [], t[0]);
      assert NonEmpty([]) == [];
    } else {
      var mid := t[1..n - 1];
      assert t == [t[0]] + mid + [t[n - 1]];
      KeepEndsOf(t, t[0], mid, t[n - 1]);
      assert [""] + t == [""] + ([t[0]] + mid) + [t[n - 1]];
      KeepEndsOf([""] + t, "", [t[0]] + mid, t[n - 1]);
      NonEmptyConcat([t[0]], mid);
      assert NonEmpty([t[0]]) == [t[0]];
    }
  }

  lemma KeepEndsGlue(x: string, t: seq<string>)
    requires |t| >= 1
    ensures KeepEnds([x + t[0]] + t[1..]) == [x + KeepEnds(t)[0]] + KeepEnds(t)[1..]
  {
    var n := |t|;
    var g := [x + t[0]] + t[1..];
    if n >= 2 {
      var mid := t[1..n - 1];
      assert t == [t[0]] + mid + [t[n - 1]];
      KeepEndsOf(t, t[0], mid, t[n - 1]);
      assert g == [x + t[0]] + mid + [t[n - 1]];
      KeepEndsOf(g, x + t[0], mid, t[n - 1]);
      var k := KeepEnds(t);
      var rest := NonEmpty(mid) + [t[n - 1]];
      assert k == [t[0]] + rest;
      assert k[0] == t[0] && k[1..] == rest;
      assert KeepEnds(g) == [x + t[0]] + rest;
    } else {
      assert g == [x + t[0]] && KeepEnds(g) == g;
      assert KeepEnds(t) == t && t[1..] == [];
    }
  }

  lemma SplitSlashFirst(s: string)
    requires s != [] && s[0] == '/'
    ensures Split(s) == [""] + Split(s[1..])
  {
  }

  lemma SplitOtherFirst(s: string)
    requires s != [] && s[0] != '/'
    ensures Split(s) == [[s[0]] + Split(s[1..])[0]] + Split(s[1..])[1..]
  {
  }

  /** What the collapse does to the segments: it drops the empty inner segments and nothing else. */
  lemma {:induction false} CollapseSplit(s: string)
    ensures Split(Collapse(s)) == KeepEnds(Split(s))
    decreases |s|
  {
    if |s| == 1 {
      if s[0] != '/' { SplitWithoutSlash(s); }
    } else if |s| > 1 {
      var r := s[1..];
      CollapseSplit(r);
      if s[0] == '/' && s[1] == '/' {
        SplitSlashFirst(s);
        SplitSlashFirst(r);
        KeepEndsDropsEmptyHead(Split(r));
      } else if s[0] == '/' {
        SplitSlashFirst(s);
        var c := Collapse(r);
        assert Collapse(s) == "/" + c;
        SplitSlashFirst("/" + c);
        assert ("/" + c)[1..] == c;
        if r != [] {
          SplitOtherFirst(r);
        }
        KeepEndsKeepsHead(Split(r));
      } else {
        SplitOtherFirst(s);
        var c := Collapse(r);
        assert Collapse(s) == [s[0]] + c;
        SplitOtherFirst([s[0]] + c);
        assert ([s[0]] + c)[1..] == c;
        KeepEndsGlue([s[0]], Split(r));
      }
    }
  }

  lemma {:induction false} NonEmptyTwice(t: seq<string>)
    ensures NonEmpty(NonEmpty(t)) == NonEmpty(t)
    decreases |t|
  {
    if t != [] {
      NonEmptyTwice(t[1..]);
      if t[0] != "" {
        assert ([t[0]] + NonEmpty(t[1..]))[1..] == NonEmpty(t[1..]);
      }
    }
  }

  lemma NonEmptyKeepEnds(t: seq<string>)
    ensures NonEmpty(KeepEnds(t)) == NonEmpty(t)
  {
    var n := |t|;
    if n >= 2 {
      var mid := t[1..n - 1];
      assert t == [t[0]] + mid + [t[n - 1]];
      NonEmptyConcat([t[0]] + mid, [t[n - 1]]);
      NonEmptyConcat([t[0]], mid);
      NonEmptyConcat([t[0]] + NonEmpty(mid), [t[n - 1]]);
      NonEmptyConcat([t[0]], NonEmpty(mid));
      NonEmptyTwice(mid);
    }
  }

  /** The collapse keeps the non-empty segments. */
  lemma CollapseSegments(s: string)
    ensures Segments(Collapse(s)) == Segments(s)
  {
    CollapseSplit(s);
    NonEmptyKeepEnds(Split(s));
  }

}

=== FILE: converters.dfy ===
/**
 * Conversions between `file:` URLs and native paths: POSIX paths, Windows
 * short paths (`C:\dir`, `\\server\dir`) and Windows long paths
 * (`\\?\C:\dir`, `\\?\unc\server\dir`), and the dispatch on the platform.
 * Which platform the program runs on is a parameter here.
 */
module Converters {
  import opened Wrappers
  import opened PathSegments
  import opened UriCodec
  import opened FileUri

  /** Why a URL has no native path. */
  datatype ConversionError =
    | NonLocalHost(furi: string)  // `toPosixPath` on a host other than "" or "localhost"
    | MalformedUri                // the `URIError` of `decodeURIComponent`

  predicate IsSeparator(c: char)
  {
    c == '\\' || c == '/'
  }

  /** `str.replace(/\\/g, "/")`. */
  function ToForwardSlashes(s: string): (r: string)
    ensures |r| == |s| && '\\' !in r
    ensures forall i :: 0 <= i < |s| ==> if IsSeparator(s[i]) then r[i] == '/' else r[i] == s[i]
  {
    seq(|s|, i requires 0 <= i < |s| => if s[i] == '\\' then '/' else s[i])
  }

  /** `str.replace(/\//g, "\\")`. */
  function ToBackwardSlashes(s: string): (r: string)
    ensures |r| == |s| && '/' !in r
    ensures forall i :: 0 <= i < |s| ==> if IsSeparator(s[i]) then r[i] == '\\' else r[i] == s[i]
  {
    seq(|s|, i requires 0 <= i < |s| => if s[i] == '/' then '\\' else s[i])
  }

  /** `decodeURIComponent` on every part; `None` when one of them is malformed. */
  function DecodeAll(parts: seq<string>): (r: Option<seq<string>>)
    ensures r.Some? ==> |r.value| == |parts|
  {
    if parts == [] then Some([])
    else match (Decode(parts[0]), DecodeAll(parts[1..]))
      case (Some(d), Some(ds)) => Some([d] + ds)
      case _ => None
  }

  /** `DecodeAll` decodes every part on its own, and fails exactly when one part fails. */
  lemma {:induction false} DecodeAllPointwise(parts: seq<string>)
    ensures DecodeAll(parts).Some? <==> forall i :: 0 <= i < |parts| ==> Decode(parts[i]).Some?
    ensures DecodeAll(parts).Some? ==>
      forall i :: 0 <= i < |parts| ==> DecodeAll(parts).value[i] == Decode(parts[i]).value
    decreases |parts|
  {
    if parts != [] {
      var rest := parts[1..];
      DecodeAllPointwise(rest);
      assert forall i :: 1 <= i < |parts| ==> parts[i] == rest[i - 1];
      if DecodeAll(parts).Some? {
        var ds := DecodeAll(parts).value;
        assert ds == [Decode(parts[0]).value] + DecodeAll(rest).value;
        forall i | 0 <= i < |parts|
          ensures Decode(parts[i]).Some? && ds[i] == Decode(parts[i]).value
        {
          if i > 0 {
            assert ds[i] == DecodeAll(rest).value[i - 1];
          }
        }
      } else if Decode(parts[0]).Some? {
        var i :| 0 <= i < |rest| && Decode(rest[i]).None?;
        assert Decode(parts[i + 1]).None?;
      }
    }
  }

  /** `pathname.split("/").map(decodeURIComponent).join("/")`. */
  function DecodePath(pathname: string): (r: Option<string>)
    ensures r.Some? && IsAbsolutePath(pathname) ==> IsAbsolutePath(r.value)
  {
    match DecodeAll(Split(pathname))
    case None => None
    case Some(parts) =>
      assert IsAbsolutePath(pathname) ==> parts[0] == "" by {
        if IsAbsolutePath(pathname) {
          assert Split(pathname) == [""] + Split(pathname[1..]);
          assert Decode("") == Some("");
        }
      }
      Some(Join(parts))
  }

  /**
   * The decoded path fails exactly when one segment fails to decode; otherwise
   * it is the decoded segments, each decoded on its own, joined by `/`.
   */
  lemma DecodePathPointwise(pathname: string)
    ensures var parts := Split(pathname);
      DecodePath(pathname).Some? <==> forall i :: 0 <= i < |parts| ==> Decode(parts[i]).Some?
    ensures var parts := Split(pathname);
      DecodePath(pathname).Some? ==>
        && DecodePath(pathname).value == Join(DecodeAll(parts).value)
        && |DecodeAll(parts).value| == |parts|
        && forall i :: 0 <= i < |parts| ==> DecodeAll(parts).value[i] == Decode(parts[i]).value
  {
    DecodeAllPointwise(Split(pathname));
  }

  /** `s.substring(1)`. */
  function DropFirst(s: string): string
  {
    if s == [] then s else s[1..]
  }

  /** `toPosixPath(furi)`: the decoded pathname; a host other than "" or "localhost" is refused. */
  function ToPosixPath(furi: Url): (r: Result<string, ConversionError>)
    ensures r.Failure? && r.error.NonLocalHost? <==> furi.host != "" && furi.host != "localhost"
    ensures r.Failure? && r.error.NonLocalHost? ==> r.error.furi == Href(furi)
    ensures r.Success? && IsAbsolutePath(furi.pathname) ==> IsAbsolutePath(r.value)
  {
    if furi.host != "" && furi.host != "localhost" then Failure(NonLocalHost(Href(furi)))
    else match DecodePath(furi.pathname)
      case None => Failure(MalformedUri)
      case Some(p) =>
        Success(p)
  }

  /** `formatFileUrl(pathname)`: `file:///` with the `encodeURI`-escaped pathname. */
  function FormatFileUrl(pathname: string): (u: Url)
    ensures u.protocol == "file:" && u.host == "" && u.search == "" && u.hash == ""
    ensures u.pathname == EncodeUri(Rooted(pathname))
    ensures DecodePath(u.pathname) == Some(Rooted(pathname))
  {
    RootedEncodeUri(pathname);
    DecodePathEncodeUri(Rooted(pathname));
    Url("file:", "", Rooted(EncodeUri(pathname)), "", "")
  }

  /** `fromPosixPath(absPath)`. */
  function FromPosixPath(absPath: string): (u: Url)
    ensures u.protocol == "file:" && u.host == "" && u.search == "" && u.hash == ""
    ensures IsAbsolutePath(u.pathname) && DecodePath(u.pathname) == Some(Rooted(absPath))
  {
    FormatFileUrl(absPath)
  }

  /** `toWindowsShortPath(furi)`: a drive path for an empty host, `\\host\...` otherwise. */
  function ToWindowsShortPath(furi: Url): (r: Result<string, ConversionError>)
    ensures r.Failure? ==> r.error == MalformedUri
    ensures r.Success? && furi.host == "" ==> '/' !in r.value
    ensures r.Success? && furi.host != "" ==>
      |r.value| >= 2 + |furi.host| && r.value[..2 + |furi.host|] == "\\\\" + furi.host &&
      '/' !in r.value[2 + |furi.host|..]
  {
    if furi.host == "" then
      match DecodePath(DropFirst(furi.pathname))
      case None => Failure(MalformedUri)
      case Some(forward) => Success(ToBackwardSlashes(forward))
    else
      match DecodePath(furi.pathname)
      case None => Failure(MalformedUri)
      case Some(forward) =>
        var backward := ToBackwardSlashes(forward);
        assert ("\\\\" + furi.host + backward)[2 + |furi.host|..] == backward;
        Success("\\\\" + furi.host + backward)
  }

  /**
   * `toWindowsLongPath(furi)`: the short path behind the device prefix `\\?\`
   * for an empty host, and `\\?\unc\host\...` in place of `\\host\...` otherwise.
   */
  function ToWindowsLongPath(furi: Url): (r: Result<string, ConversionError>)
    ensures var short := ToWindowsShortPath(furi);
      r.Success? == short.Success? &&
      (r.Failure? ==> r.error == short.error) &&
      (r.Success? && furi.host == "" ==> r.value == "\\\\?\\" + short.value) &&
      (r.Success? && furi.host != "" ==>
        short.value[..2 + |furi.host|] == "\\\\" + furi.host &&
        r.value == "\\\\?\\unc\\" + furi.host + short.value[2 + |furi.host|..])
  {
    if furi.host == "" then
      match DecodePath(DropFirst(furi.pathname))
      case None => Failure(MalformedUri)
      case Some(forward) => Success("\\\\?\\" + ToBackwardSlashes(forward))
    else
      match DecodePath(furi.pathname)
      case None => Failure(MalformedUri)
      case Some(forward) =>
        var backward := ToBackwardSlashes(forward);
        assert ("\\\\" + furi.host + backward)[2 + |furi.host|..] == backward;
        Success("\\\\?\\unc\\" + furi.host + backward)
  }

  /** A regex match: the captured name is `s[start..stop]` and the match ends at `end`. */
  datatype Match = Match(start: nat, stop: nat, end: nat)

  /** The end of the run of separators that starts at `i`. */
  function SkipSeparators(s: string, i: nat): (j: nat)
    requires i <= |s|
    ensures i <= j <= |s|
    ensures forall k :: i <= k < j ==> IsSeparator(s[k])
    ensures j == |s| || !IsSeparator(s[j])
    decreases |s| - i
  {
    if i < |s| && IsSeparator(s[i]) then SkipSeparators(s, i + 1) else i
  }

  /** The end of the run of non-separators that starts at `i`. */
  function SkipName(s: string, i: nat): (j: nat)
    requires i <= |s|
    ensures i <= j <= |s|
    ensures forall k :: i <= k < j ==> !IsSeparator(s[k])
    ensures j == |s| || IsSeparator(s[j])
    decreases |s| - i
  {
    if i < |s| && !IsSeparator(s[i]) then SkipName(s, i + 1) else i
  }

  /** A match of `([^\\/]+)(?:$|[\\/]+)` from `start`, with both runs as long as they go. */
  predicate IsNameMatch(s: string, m: Match)
  {
    && m.start < m.stop <= m.end <= |s|
    && (forall k :: m.start <= k < m.stop ==> !IsSeparator(s[k]))
    && (m.stop == |s| || IsSeparator(s[m.stop]))
    && (forall k :: m.stop <= k < m.end ==> IsSeparator(s[k]))
    && (m.end == |s| || !IsSeparator(s[m.end]))
  }

  /**
   * `WINDOWS_PREFIX_REGEX`, `^[\\/]{2,}([^\\/]+)(?:$|[\\/]+)`: two or more
   * separators (all of them), then the name, then the separators after it.
   */
  function MatchPrefix(s: string): (m: Option<Match>)
    ensures m.None? <==> !(|s| >= 2 && IsSeparator(s[0]) && IsSeparator(s[1]) &&
                           exists k :: 2 <= k < |s| && !IsSeparator(s[k]))
    ensures m.Some? ==> 2 <= m.value.start && IsNameMatch(s, m.value) &&
                        forall k :: 0 <= k < m.value.start ==> IsSeparator(s[k])
  {
    var start := SkipSeparators(s, 0);
    if start < 2 || start == |s| then None
    else
      var stop := SkipName(s, start);
      Some(Match(start, stop, SkipSeparators(s, stop)))
  }

  /** `unc` in any case, as the `i` flag of the regex allows. */
  predicate IsUncWord(w: string)
  {
    |w| == 3 && (w[0] == 'u' || w[0] == 'U') && (w[1] == 'n' || w[1] == 'N') && (w[2] == 'c' || w[2] == 'C')
  }

  /**
   * `WINDOWS_UNC_REGEX`, `^unc(?:$|[\\/]+)([^\\/]+)(?:$|[\\/]+)` with the `i`
   * flag: `unc`, one or more separators, then the host and the separators after it.
   */
  function MatchUnc(s: string): (m: Option<Match>)
    ensures m.None? <==> !(|s| >= 4 && IsUncWord(s[..3]) && IsSeparator(s[3]) &&
                           exists k :: 4 <= k < |s| && !IsSeparator(s[k]))
    ensures m.Some? ==> 4 <= m.value.start && IsUncWord(s[..3]) && IsNameMatch(s, m.value) &&
                        forall k :: 3 <= k < m.value.start ==> IsSeparator(s[k])
  {
    if |s| < 3 || !IsUncWord(s[..3]) then None
    else
      var start := SkipSeparators(s, 3);
      if start == 3 || start == |s| then None
      else
        var stop := SkipName(s, start);
        Some(Match(start, stop, SkipSeparators(s, stop)))
  }

  /** A server URL as `fromWindowsPath` builds it: `host` as given, the rest escaped into the pathname. */
  function ServerUrl(host: string, path: string): Url
  {
    FormatFileUrl("/" + ToForwardSlashes(path)).(host := host)
  }

  /**
   * `fromWindowsPath(absPath)`: a short or long device path becomes a drive
   * pathname; a short server path `\\host\...` and a long one
   * `\\?\unc\host\...` set the host.
   */
  function FromWindowsPath(absPath: string): (r: Url)
    ensures r.protocol == "file:" && IsAbsolutePath(r.pathname) && r.search == "" && r.hash == ""
  {
    match MatchPrefix(absPath)
    case None => FormatFileUrl("/" + ToForwardSlashes(absPath))
    case Some(m) =>
      var prefix := absPath[m.start..m.stop];
      var tail := absPath[m.end..];
      if prefix != "?" then ServerUrl(prefix, tail)
      else
        match MatchUnc(tail)
        case None => FormatFileUrl("/" + ToForwardSlashes(tail))
        case Some(u) => ServerUrl(tail[u.start..u.stop], tail[u.end..])
  }

  /** `toSysPath(furi, windowsLongPath)`, with the platform as a parameter. */
  function ToSysPath(furi: Url, windowsLongPath: bool, onWindows: bool): (r: Result<string, ConversionError>)
    ensures r.Failure? && r.error.NonLocalHost? <==> !onWindows && furi.host != "" && furi.host != "localhost"
    ensures r.Success? && onWindows && furi.host == "" ==> '/' !in r.value
    ensures r.Success? && !onWindows && IsAbsolutePath(furi.pathname) ==> IsAbsolutePath(r.value)
  {
    if onWindows then (if windowsLongPath then ToWindowsLongPath(furi) else ToWindowsShortPath(furi))
    else ToPosixPath(furi)
  }

  /** `fromSysPath(absPath)`, with the platform as a parameter. */
  function FromSysPath(absPath: string, onWindows: bool): (u: Url)
    ensures u.protocol == "file:" && IsAbsolutePath(u.pathname) && u.search == "" && u.hash == ""
    ensures !onWindows ==> u.host == "" && DecodePath(u.pathname) == Some(Rooted(absPath))
  {
    if onWindows then FromWindowsPath(absPath) else FromPosixPath(absPath)
  }

  /** `encodeURI` on every part of a split pathname. */
  function EncodeUriAll(parts: seq<string>): seq<string>
  {
    if parts == [] then [] else [EncodeUri(parts[0])] + EncodeUriAll(parts[1..])
  }

  /** `encodeURI` keeps every `/`, so it escapes a pathname part by part. */
  lemma {:induction false} SplitEncodeUri(s: string)
    ensures Split(EncodeUri(s)) == EncodeUriAll(Split(s))
    decreases |s|
  {
    if s != [] {
      var e := EncodeChar(s[0], true);
      var rest := EncodeUri(s[1..]);
      assert EncodeUri(s) == e + rest;
      SplitEncodeUri(s[1..]);
      if s[0] == '/' {
        assert e == "/";
        assert (e + rest)[1..] == rest;
        assert EncodeUri("") == "";
      } else {
        EncodeCharKeepsOutSlash(s[0]);
        SplitGluedPrefix(e, rest);
        var t := Split(s[1..]);
        assert Split(s) == [[s[0]] + t[0]] + t[1..];
        assert EncodeUri([s[0]] + t[0]) == e + EncodeUri(t[0]) by {
          assert ([s[0]] + t[0])[1..] == t[0];
        }
      }
    }
  }

  lemma EncodeCharKeepsOutSlash(c: char)
    requires c != '/'
    ensures '/' !in EncodeChar(c, true)
  {
    var e := EncodeChar(c, true);
    if !(IsUnreserved(c) || IsReserved(c)) {
      EscapeAllEncoded(Utf8(c), false);
      assert forall i :: 0 <= i < |e| ==> e[i] != '/';
    }
  }

  lemma {:induction false} DecodeAllEncodeUri(parts: seq<string>)
    ensures DecodeAll(EncodeUriAll(parts)) == Some(parts)
  {
    if parts != [] {
      DecodeEncode(parts[0], true);
      DecodeAllEncodeUri(parts[1..]);
      var q := EncodeUriAll(parts);
      assert q[0] == EncodeUri(parts[0]);
      assert q[1..] == EncodeUriAll(parts[1..]);
      assert DecodeAll(q) == Some([parts[0]] + parts[1..]);
      assert [parts[0]] + parts[1..] == parts;
    }
  }

  /** Decoding a pathname part by part undoes `encodeURI`. */
  lemma DecodePathEncodeUri(s: string)
    ensures DecodePath(EncodeUri(s)) == Some(s)
  {
    SplitEncodeUri(s);
    DecodeAllEncodeUri(Split(s));
    JoinSplit(s);
  }

  lemma EncodeUriAfterSlash(s: string)
    ensures EncodeUri("/" + s) == "/" + EncodeUri(s)
  {
    assert ("/" + s)[1..] == s;
  }

  /** Escaping and rooting a pathname commute. */
  lemma RootedEncodeUri(p: string)
    ensures Rooted(EncodeUri(p)) == EncodeUri(Rooted(p))
  {
    if p != [] {
      var e := EncodeChar(p[0], true);
      assert EncodeUri(p) == e + EncodeUri(p[1..]);
      if p[0] != '/' {
        EncodeCharKeepsOutSlash(p[0]);
        assert e[0] in e;
        EncodeUriAfterSlash(p);
      }
    } else {
      EncodeUriAfterSlash(p);
    }
  }

  /**
   * `toPosixPath(fromPosixPath(p))` gives back `p`, with a leading `/` added
   * when `p` has none.
   */
  lemma PosixRoundTrip(absPath: string)
    ensures ToPosixPath(FromPosixPath(absPath)) == Success(Rooted(absPath))
  {
    RootedEncodeUri(absPath);
    DecodePathEncodeUri(Rooted(absPath));
  }

  lemma BackwardAfterForward(s: string)
    ensures ToBackwardSlashes(ToForwardSlashes(s)) == ToBackwardSlashes(s)
  {
  }

  lemma ForwardAfterBackward(s: string)
    ensures ToForwardSlashes(ToBackwardSlashes(s)) == ToForwardSlashes(s)
  {
  }

  lemma BackwardSlashesConcat(a: string, b: string)
    ensures ToBackwardSlashes(a + b) == ToBackwardSlashes(a) + ToBackwardSlashes(b)
  {
    var l, r := ToBackwardSlashes(a + b), ToBackwardSlashes(a) + ToBackwardSlashes(b);
    assert |l| == |r|;
    forall i | 0 <= i < |l|
      ensures l[i] == r[i]
    {
      if i < |a| {
        assert (a + b)[i] == a[i];
      } else {
        assert (a + b)[i] == b[i - |a|];
      }
    }
  }

  /** Each rewrite undoes the other on a string holding only its own separator. */
  lemma SlashesInverse(s: string)
    ensures '\\' !in s ==> ToForwardSlashes(ToBackwardSlashes(s)) == s
    ensures '/' !in s ==> ToBackwardSlashes(ToForwardSlashes(s)) == s
  {
  }

  /** The URL of a device path, and the drive path it converts back to. */
  lemma DeviceUrlToShort(path: string)
    ensures var u := FormatFileUrl("/" + ToForwardSlashes(path));
      u.host == "" && ToWindowsShortPath(u) == Success(ToBackwardSlashes(path))
  {
    var f := ToForwardSlashes(path);
    EncodeUriAfterSlash(f);
    assert DropFirst("/" + EncodeUri(f)) == EncodeUri(f);
    DecodePathEncodeUri(f);
    BackwardAfterForward(path);
  }

  /** The short path of a URL with a host whose pathname decodes. */
  lemma ShortFromDecoded(u: Url, forward: string)
    requires u.host != "" && DecodePath(u.pathname) == Some(forward)
    ensures ToWindowsShortPath(u) == Success("\\\\" + u.host + ToBackwardSlashes(forward))
  {
  }

  /** The URL of a server path, and the `\\host\...` path it converts back to. */
  lemma ServerUrlToShort(host: string, path: string)
    requires host != ""
    ensures ToWindowsShortPath(ServerUrl(host, path)) ==
            Success("\\\\" + host + "\\" + ToBackwardSlashes(path))
  {
    var f := ToForwardSlashes(path);
    var u := ServerUrl(host, path);
    assert Rooted("/" + f) == "/" + f;
    assert DecodePath(u.pathname) == Some("/" + f);
    ShortFromDecoded(u, "/" + f);
    BackwardAfterForward(path);
    BackwardSlashesConcat("/", f);
    assert ToBackwardSlashes("/") == "\\";
    assert "\\\\" + host + ("\\" + ToBackwardSlashes(path)) == "\\\\" + host + "\\" + ToBackwardSlashes(path);
  }

  lemma SkipSeparatorsAt(s: string, i: nat, j: nat)
    requires i <= j <= |s|
    requires forall k :: i <= k < j ==> IsSeparator(s[k])
    requires j == |s| || !IsSeparator(s[j])
    ensures SkipSeparators(s, i) == j
  {
  }

  lemma SkipNameAt(s: string, i: nat, j: nat)
    requires i <= j <= |s|
    requires forall k :: i <= k < j ==> !IsSeparator(s[k])
    requires j == |s| || IsSeparator(s[j])
    ensures SkipName(s, i) == j
  {
  }

  predicate AllSeparators(s: string)
  {
    forall k :: 0 <= k < |s| ==> IsSeparator(s[k])
  }

  predicate IsName(s: string)
  {
    s != [] && forall k :: 0 <= k < |s| ==> !IsSeparator(s[k])
  }

  /** A path that is empty or starts with something other than a separator. */
  predicate Unprefixed(s: string)
  {
    s == [] || !IsSeparator(s[0])
  }

  /** A short path `\\host\...` (any run of two or more separators first) names the server `host`. */
  lemma ShortServerForm(lead: string, host: string, sep: string, path: string)
    requires |lead| >= 2 && AllSeparators(lead)
    requires IsName(host) && host != "?"
    requires AllSeparators(sep) && (sep != [] || path == [])
    requires Unprefixed(path)
    ensures FromWindowsPath(lead + host + sep + path) == ServerUrl(host, path)
  {
    var s := lead + host + sep + path;
    ShortServerMatch(lead, host, sep, path);
    ServerOfMatch(s, MatchPrefix(s).value);
  }

  /** A prefix match whose capture is not `?` is a short server path. */
  lemma ServerOfMatch(s: string, m: Match)
    requires MatchPrefix(s) == Some(m) && s[m.start..m.stop] != "?"
    ensures FromWindowsPath(s) == ServerUrl(s[m.start..m.stop], s[m.end..])
  {
  }

  lemma ShortServerMatch(lead: string, host: string, sep: string, path: string)
    requires |lead| >= 2 && AllSeparators(lead)
    requires IsName(host)
    requires AllSeparators(sep) && (sep != [] || path == [])
    requires Unprefixed(path)
    ensures var s := lead + host + sep + path;
      var a, b, c := |lead|, |lead| + |host|, |lead| + |host| + |sep|;
      && MatchPrefix(s) == Some(Match(a, b, c))
      && s[a..b] == host
      && s[c..] == path
  {
    var s := lead + host + sep + path;
    var a, b, c := |lead|, |lead| + |host|, |lead| + |host| + |sep|;
    SkipSeparatorsAt(s, 0, a);
    SkipNameAt(s, a, b);
    SkipSeparatorsAt(s, b, c);
  }

  lemma UncMatchOf(uncWord: string, sep1: string, host: string, sep2: string, path: string)
    requires IsUncWord(uncWord)
    requires sep1 != [] && AllSeparators(sep1)
    requires IsName(host)
    requires AllSeparators(sep2) && (sep2 != [] || path == [])
    requires Unprefixed(path)
    ensures var s := uncWord + sep1 + host + sep2 + path;
      MatchUnc(s) == Some(Match(3 + |sep1|, 3 + |sep1| + |host|, 3 + |sep1| + |host| + |sep2|))
  {
    var s := uncWord + sep1 + host + sep2 + path;
    var a, b, c := 3 + |sep1|, 3 + |sep1| + |host|, 3 + |sep1| + |host| + |sep2|;
    assert s[..3] == uncWord;
    SkipSeparatorsAt(s, 3, a);
    SkipNameAt(s, a, b);
    SkipSeparatorsAt(s, b, c);
  }

  /** After `\\?\`, `fromWindowsPath` looks for `unc\host` in the rest. */
  lemma LongPrefix(lead: string, sep0: string, tail: string)
    requires |lead| >= 2 && AllSeparators(lead)
    requires sep0 != [] && AllSeparators(sep0)
    requires Unprefixed(tail)
    ensures FromWindowsPath(lead + "?" + sep0 + tail) ==
      match MatchUnc(tail)
      case None => FormatFileUrl("/" + ToForwardSlashes(tail))
      case Some(u) => ServerUrl(tail[u.start..u.stop], tail[u.end..])
  {
    LongPrefixMatch(lead, sep0, tail);
  }

  lemma LongPrefixMatch(lead: string, sep0: string, tail: string)
    requires |lead| >= 2 && AllSeparators(lead)
    requires sep0 != [] && AllSeparators(sep0)
    requires Unprefixed(tail)
    ensures var s := lead + "?" + sep0 + tail;
      var a := |lead|;
      && MatchPrefix(s) == Some(Match(a, a + 1, a + 1 + |sep0|))
      && s[a..a + 1] == "?"
      && s[a + 1 + |sep0|..] == tail
  {
    var s := lead + "?" + sep0 + tail;
    var a := |lead|;
    SkipSeparatorsAt(s, 0, a);
    SkipNameAt(s, a, a + 1);
    SkipSeparatorsAt(s, a + 1, a + 1 + |sep0|);
  }

  lemma LongServerAfterPrefix(lead: string, sep0: string, tail: string, host: string, path: string)
    requires |lead| >= 2 && AllSeparators(lead)
    requires sep0 != [] && AllSeparators(sep0)
    requires Unprefixed(tail)
    requires MatchUnc(tail).Some?
    requires tail[MatchUnc(tail).value.start..MatchUnc(tail).value.stop] == host
    requires tail[MatchUnc(tail).value.end..] == path
    ensures FromWindowsPath(lead + "?" + sep0 + tail) == ServerUrl(host, path)
  {
    LongPrefix(lead, sep0, tail);
  }

  lemma UncSlices(uncWord: string, sep1: string, host: string, sep2: string, path: string)
    requires |uncWord| == 3
    ensures var tail := uncWord + sep1 + host + sep2 + path;
      var b := 3 + |sep1|;
      tail[b..b + |host|] == host && tail[b + |host| + |sep2|..] == path
  {
  }

  /**
   * A long server path `\\?\unc\host\...` (any case of `unc`, any runs of
   * separators) names the same server as the short path `\\host\...`.
   */
  lemma LongServerForm(lead: string, sep0: string, uncWord: string, sep1: string,
                       host: string, sep2: string, path: string)
    requires |lead| >= 2 && AllSeparators(lead)
    requires sep0 != [] && AllSeparators(sep0)
    requires IsUncWord(uncWord)
    requires sep1 != [] && AllSeparators(sep1)
    requires IsName(host)
    requires AllSeparators(sep2) && (sep2 != [] || path == [])
    requires Unprefixed(path)
    ensures FromWindowsPath(lead + "?" + sep0 + uncWord + sep1 + host + sep2 + path) == ServerUrl(host, path)
  {
    var tail := uncWord + sep1 + host + sep2 + path;
    assert lead + "?" + sep0 + uncWord + sep1 + host + sep2 + path == lead + "?" + sep0 + tail;
    UncMatchOf(uncWord, sep1, host, sep2, path);
    UncSlices(uncWord, sep1, host, sep2, path);
    LongServerAfterPrefix(lead, sep0, tail, host, path);
  }

  /**
   * A long device path `\\?\X` names the same file as the short path `X`
   * when `X` is not itself a server path.
   */
  lemma LongDeviceForm(lead: string, sep0: string, path: string)
    requires |lead| >= 2 && AllSeparators(lead)
    requires sep0 != [] && AllSeparators(sep0)
    requires Unprefixed(path) && MatchUnc(path).None?
    ensures FromWindowsPath(lead + "?" + sep0 + path) == FromWindowsPath(path)
    ensures FromWindowsPath(path) == FormatFileUrl("/" + ToForwardSlashes(path))
  {
    LongPrefix(lead, sep0, path);
  }

  /** A drive path survives `fromWindowsPath` then `toWindowsShortPath`, with its slashes turned backward. */
  lemma DeviceRoundTrip(absPath: string)
    requires MatchPrefix(absPath).None?
    ensures ToWindowsShortPath(FromWindowsPath(absPath)) == Success(ToBackwardSlashes(absPath))
  {
    DeviceUrlToShort(absPath);
  }

  /** A long device path survives `fromWindowsPath` then `toWindowsLongPath`, written back as `\\?\X`. */
  lemma LongDeviceRoundTrip(lead: string, sep0: string, path: string)
    requires |lead| >= 2 && AllSeparators(lead)
    requires sep0 != [] && AllSeparators(sep0)
    requires Unprefixed(path) && MatchUnc(path).None?
    ensures ToWindowsLongPath(FromWindowsPath(lead + "?" + sep0 + path)) ==
            Success("\\\\?\\" + ToBackwardSlashes(path))
  {
    LongDeviceForm(lead, sep0, path);
    DeviceUrlToShort(path);
  }

  /** A short server path survives `fromWindowsPath` then `toWindowsShortPath`, written back as `\\host\path`. */
  lemma ServerRoundTrip(lead: string, host: string, sep: string, path: string)
    requires |lead| >= 2 && AllSeparators(lead)
    requires IsName(host) && host != "?"
    requires AllSeparators(sep) && (sep != [] || path == [])
    requires Unprefixed(path)
    ensures ToWindowsShortPath(FromWindowsPath(lead + host + sep + path)) ==
            Success("\\\\" + host + "\\" + ToBackwardSlashes(path))
  {
    ShortServerForm(lead, host, sep, path);
    ServerUrlToShort(host, path);
  }

  /** The long path of a URL with a host, read off its short path. */
  lemma LongFromShort(u: Url, b: string)
    requires u.host != "" && ToWindowsShortPath(u) == Success("\\\\" + u.host + "\\" + b)
    ensures ToWindowsLongPath(u) == Success("\\\\?\\unc\\" + u.host + "\\" + b)
  {
    var rest := "\\" + b;
    assert "\\\\" + u.host + "\\" + b == "\\\\" + u.host + rest;
    assert ("\\\\" + u.host + rest)[2 + |u.host|..] == rest;
    assert "\\\\?\\unc\\" + u.host + rest == "\\\\?\\unc\\" + u.host + "\\" + b;
  }

  /** The long path of a server URL. */
  lemma ServerUrlToLong(host: string, path: string)
    requires host != ""
    ensures ToWindowsLongPath(ServerUrl(host, path)) ==
            Success("\\\\?\\unc\\" + host + "\\" + ToBackwardSlashes(path))
  {
    ServerUrlToShort(host, path);
    LongFromShort(ServerUrl(host, path), ToBackwardSlashes(path));
  }

  /**
   * A long server path survives `fromWindowsPath` then `toWindowsLongPath`,
   * written back as `\\?\unc\host\path` with backward slashes.
   */
  lemma LongServerRoundTrip(lead: string, sep0: string, uncWord: string, sep1: string,
                            host: string, sep2: string, path: string)
    requires |lead| >= 2 && AllSeparators(lead)
    requires sep0 != [] && AllSeparators(sep0)
    requires IsUncWord(uncWord)
    requires sep1 != [] && AllSeparators(sep1)
    requires IsName(host)
    requires AllSeparators(sep2) && (sep2 != [] || path == [])
    requires Unprefixed(path)
    ensures ToWindowsLongPath(FromWindowsPath(lead + "?" + sep0 + uncWord + sep1 + host + sep2 + path)) ==
            Success("\\\\?\\unc\\" + host + "\\" + ToBackwardSlashes(path))
  {
    LongServerForm(lead, sep0, uncWord, sep1, host, sep2, path);
    ServerUrlToLong(host, path);
  }

  /** `toSysPath(fromSysPath(p))` on either platform. */
  lemma SysRoundTrip(absPath: string, windowsLongPath: bool, onWindows: bool)
    ensures !onWindows ==>
      ToSysPath(FromSysPath(absPath, onWindows), windowsLongPath, onWindows) == Success(Rooted(absPath))
    ensures onWindows && MatchPrefix(absPath).None? ==>
      ToSysPath(FromSysPath(absPath, onWindows), windowsLongPath, onWindows) ==
      Success((if windowsLongPath then "\\\\?\\" else "") + ToBackwardSlashes(absPath))
  {
    if onWindows {
      if MatchPrefix(absPath).None? {
        var u := FromWindowsPath(absPath);
        assert u == FormatFileUrl("/" + ToForwardSlashes(absPath));
        DeviceUrlToShort(absPath);
        if !windowsLongPath {
          assert "" + ToBackwardSlashes(absPath) == ToBackwardSlashes(absPath);
        }
      }
    } else {
      PosixRoundTrip(absPath);
    }
  }
}

=== FILE: furi.dfy ===
/**
 * Normalized `file:` URIs: the `Furi` class, its `InvalidFileUri` error and
 * the pathname normalization it enforces.
 *
 * A URL is taken as the record of the fields the parser of `url.URL` yields
 * (`protocol`, `host`, `pathname`, `search`, `hash`); parsing itself is not
 * part of this model.
 */
module FileUri {
  import opened Wrappers
  import opened PathSegments
  import opened Normalization

  /** A parsed absolute URL, as its five fields. */
  datatype Url = Url(protocol: string, host: string, pathname: string, search: string, hash: string)

  /** `url.href` of a URL with an authority: `protocol//host` then path, query and fragment. */
  function Href(u: Url): string
  {
    u.protocol + "//" + u.host + u.pathname + u.search + u.hash
  }

  predicate IsAbsolutePath(p: string)
  {
    p != [] && p[0] == '/'
  }

  /** What the URL parser guarantees of every `file:` URL: its pathname starts with `/`. */
  predicate IsParsed(u: Url)
  {
    u.protocol == "file:" ==> IsAbsolutePath(u.pathname)
  }

  /** The pathname of a `Furi`: absolute and without `//`. */
  predicate IsNormalized(p: string)
  {
    IsAbsolutePath(p) && NoDoubleSlash(p)
  }

  /** The error `new Furi(input)` throws for a protocol other than `file:`. */
  datatype InvalidFileUri = InvalidFileUri(input: string, code: string, name: string, message: string)

  function InvalidFileUriError(input: string): (e: InvalidFileUri)
    ensures e.input == input && e.code == "ERR_INVALID_FILE_URI"
    ensures e.name == "TypeError [ERR_INVALID_FILE_URI]" && e.message == "Invalid file URI: " + input
  {
    InvalidFileUri(input, "ERR_INVALID_FILE_URI", "TypeError [ERR_INVALID_FILE_URI]", "Invalid file URI: " + input)
  }

  /**
   * The pathname setter of `url.URL` on a `file:` URL: the path always
   * starts with `/`, so an empty value becomes `/`.
   */
  function Rooted(p: string): (r: string)
    ensures IsAbsolutePath(r)
    ensures IsAbsolutePath(p) ==> r == p
    ensures p != [] ==> r[|r| - 1] == p[|p| - 1]
    ensures Segments(r) == Segments(p)
  {
    SegmentsLeadingSlash(p);
    if IsAbsolutePath(p) then p else "/" + p
  }

  /** The pathname setter of `Furi`: runs of `/` collapse, then the URL setter applies. */
  function NormalizePathname(v: string): (r: string)
    ensures IsNormalized(r)
    ensures IsNormalized(v) ==> r == v
    ensures Segments(r) == Segments(v)
    ensures v != [] ==> r[|r| - 1] == v[|v| - 1]
  {
    var c := Collapse(v);
    CollapseSegments(v);
    CollapseIdentity(v);
    assert !IsAbsolutePath(c) ==> NoDoubleSlash("/" + c);
    Rooted(c)
  }

  /** `new Furi(input)` on the fields of `input`: strict about the protocol, then normalizing. */
  function NormalizeUrl(u: Url): (r: Result<Url, InvalidFileUri>)
    requires IsParsed(u)
    ensures r.Failure? <==> u.protocol != "file:"
    ensures r.Failure? ==> r.error.input == Href(u) && r.error.code == "ERR_INVALID_FILE_URI"
    ensures r.Success? ==> r.value == u.(pathname := r.value.pathname)
    ensures r.Success? ==> r.value.pathname == NormalizePathname(u.pathname)
    ensures r.Success? ==> IsNormalized(r.value.pathname) && Segments(r.value.pathname) == Segments(u.pathname)
    ensures r.Success? && NoDoubleSlash(u.pathname) ==> r.value == u
  {
    if u.protocol != "file:" then Failure(InvalidFileUriError(Href(u)))
    else Success(u.(pathname := NormalizePathname(u.pathname)))
  }

  /** `hasTrailingSlash()`: a final `/` that is not the root. */
  predicate TrailingSlash(p: string)
  {
    p != "/" && p != [] && p[|p| - 1] == '/'
  }

  /**
   * The pathname `setTrailingSlash(want)` leaves: the root stays, otherwise one
   * final `/` is added or removed so that the marker matches `want`.
   */
  function WithTrailingSlash(p: string, want: bool): (r: string)
    requires IsNormalized(p)
    ensures IsNormalized(r)
    ensures Segments(r) == Segments(p)
    ensures p == "/" ==> r == "/"
    ensures p != "/" ==> r != "/" && TrailingSlash(r) == want
    ensures r == p || r == p + "/" || r + "/" == p
  {
    if p == "/" then p
    else if p[|p| - 1] == '/' then
      if want then p
      else
        var q := p[..|p| - 1];
        assert q + "/" == p;
        SegmentsTrailingSlash(q);
        q
    else if want then
      SegmentsTrailingSlash(p);
      p + "/"
    else p
  }

  /** Setting the marker twice is setting it once, and setting it to what it is changes nothing. */
  lemma WithTrailingSlashStable(p: string, want: bool)
    requires IsNormalized(p)
    ensures WithTrailingSlash(WithTrailingSlash(p, want), want) == WithTrailingSlash(p, want)
    ensures WithTrailingSlash(p, TrailingSlash(p)) == p
  {
    var r := WithTrailingSlash(p, want);
    if p != "/" {
      assert r != "/" && TrailingSlash(r) == want;
    }
  }

  /** `Furi`: a URL whose protocol is `file:` and whose pathname stays normalized. */
  class Furi {
    var protocol: string
    var host: string
    var pathname: string
    var search: string
    var hash: string

    ghost predicate Valid()
      reads this
    {
      protocol == "file:" && IsNormalized(pathname)
    }

    function ToUrl(): Url
      reads this
    {
      Url(protocol, host, pathname, search, hash)
    }

    /** `new Furi(input)` once the protocol is known to be `file:` (the throwing case is `AsFuri`). */
    constructor (input: Url)
      requires input.protocol == "file:" && IsAbsolutePath(input.pathname)
      ensures Valid()
      ensures ToUrl() == NormalizeUrl(input).value
    {
      protocol, host, pathname, search, hash := input.protocol, input.host, input.pathname, input.search, input.hash;
      new;
      if !NoDoubleSlash(pathname) {
        SetPathname(pathname);
      }
    }

    /** The `protocol` setter: anything but `file:` is ignored. */
    method SetProtocol(value: string)
      requires Valid()
      modifies this
      ensures Valid() && ToUrl() == old(ToUrl())
    {
      if value != "file:" {
        return;
      }
      protocol := value;
    }

    /** The `pathname` setter: every assignment is normalized. */
    method SetPathname(value: string)
      modifies this
      ensures pathname == NormalizePathname(value) && IsNormalized(pathname)
      ensures ToUrl() == old(ToUrl()).(pathname := pathname)
    {
      var v := value;
      CollapseIdentity(v);
      if !NoDoubleSlash(v) {
        v := Collapse(v);
      }
      pathname := Rooted(v);
    }

    /** `hasTrailingSlash()`: setting the marker to what this reports changes nothing. */
    function HasTrailingSlash(): (b: bool)
      reads this
      ensures b ==> pathname != "/" && pathname != [] && pathname[|pathname| - 1] == '/'
      ensures IsNormalized(pathname) ==> WithTrailingSlash(pathname, b) == pathname
    {
      if IsNormalized(pathname) then
        WithTrailingSlashStable(pathname, false);
        TrailingSlash(pathname)
      else
        TrailingSlash(pathname)
    }

    method SetTrailingSlash(want: bool)
      requires Valid()
      modifies this
      ensures Valid()
      ensures ToUrl() == old(ToUrl()).(pathname := WithTrailingSlash(old(pathname), want))
    {
      if pathname == "/" {
        return;
      }
      if pathname[|pathname| - 1] == '/' {
        if !want {
          SetPathname(pathname[..|pathname| - 1]);
        }
      } else if want {
        SetPathname(pathname + "/");
      }
    }
  }

  /** `asFuri(input)`: a new `Furi` for a `file:` URL, the `InvalidFileUri` error otherwise. */
  method AsFuri(input: Url) returns (r: Result<Furi, InvalidFileUri>)
    requires IsParsed(input)
    ensures r.Failure? <==> input.protocol != "file:"
    ensures r.Failure? ==> r.error == NormalizeUrl(input).error
    ensures r.Success? ==> fresh(r.value) && r.value.Valid() && r.value.ToUrl() == NormalizeUrl(input).value
  {
    if input.protocol != "file:" {
      return Failure(InvalidFileUriError(Href(input)));
    }
    var furi := new Furi(input);
    return Success(furi);
  }
}

=== FILE: segments.dfy ===
/**
 * `/`-separated segments of a URI pathname: JavaScript's `s.split("/")`,
 * `parts.join("/")`, and the list of non-empty segments.
 */
module PathSegments {

  /** `s.split("/")`: at least one part, and no part holds a `/`. */
  function Split(s: string): (parts: seq<string>)
    ensures |parts| >= 1
    ensures forall i :: 0 <= i < |parts| ==> '/' !in parts[i]
    decreases |s|
  {
    if s == [] then [""]
    else if s[0] == '/' then [""] + Split(s[1..])
    else
      var t := Split(s[1..]);
      [[s[0]] + t[0]] + t[1..]
  }

  /** `parts.join("/")`; the empty list joins to the empty string. */
  function Join(parts: seq<string>): (r: string)
  {
    if parts == [] then ""
    else if |parts| == 1 then parts[0]
    else parts[0] + "/" + Join(parts[1..])
  }

  /** `parts.filter(c => c !== "")`. */
  function NonEmpty(parts: seq<string>): (r: seq<string>)
    ensures |r| <= |parts|
    ensures forall i :: 0 <= i < |r| ==> r[i] != "" && r[i] in parts
  {
    if parts == [] then []
    else if parts[0] == "" then NonEmpty(parts[1..])
    else [parts[0]] + NonEmpty(parts[1..])
  }

  /** The non-empty segments of a pathname. */
  function Segments(p: string): seq<string>
  {
    NonEmpty(Split(p))
  }

  /** The last part of a non-empty list. */
  function Last(parts: seq<string>): string
    requires parts != []
  {
    parts[|parts| - 1]
  }

  lemma {:induction false} SplitWithoutSlash(s: string)
    requires '/' !in s
    ensures Split(s) == [s]
    decreases |s|
  {
    if s != [] {
      SplitWithoutSlash(s[1..]);
      assert [s[0]] + s[1..] == s;
    }
  }

  /** A leading run `e` without `/` sticks to the first part of what follows. */
  lemma {:induction false} SplitGluedPrefix(e: string, t: string)
    requires '/' !in e
    ensures Split(e + t) == [e + Split(t)[0]] + Split(t)[1..]
    decreases |e|
  {
    if e == [] {
      assert e + t == t && e + Split(t)[0] == Split(t)[0];
      assert Split(t) == [Split(t)[0]] + Split(t)[1..];
    } else {
      assert (e + t)[0] == e[0] && (e + t)[1..] == e[1..] + t;
      SplitGluedPrefix(e[1..], t);
      var u := Split(e[1..] + t);
      assert u[0] == e[1..] + Split(t)[0] && u[1..] == Split(t)[1..];
      assert [e[0]] + (e[1..] + Split(t)[0]) == e + Split(t)[0];
    }
  }

  /** Splitting distributes over a `/`: the parts of both sides are kept. */
  lemma {:induction false} SplitAround(a: string, b: string)
    ensures Split(a + "/" + b) == Split(a) + Split(b)
    decreases |a|
  {
    if a == [] {
      assert a + "/" + b == "/" + b;
      assert ("/" + b)[1..] == b;
    } else {
      assert (a + "/" + b)[1..] == a[1..] + "/" + b;
      SplitAround(a[1..], b);
    }
  }

  lemma SplitTrailingSlash(s: string)
    ensures Split(s + "/") == Split(s) + [""]
  {
    SplitAround(s, "");
    assert s + "/" + "" == s + "/";
  }

  /** `join("/")` starts with the first part, and puts a `/` after it when more follow. */
  lemma JoinFirst(parts: seq<string>)
    requires parts != []
    ensures parts[0] <= Join(parts)
    ensures |parts| >= 2 ==> Join(parts)[|parts[0]|] == '/'
  {
  }

  /** `s.split("/").join("/") === s`. */
  lemma {:induction false} JoinSplit(s: string)
    ensures Join(Split(s)) == s
    decreases |s|
  {
    if s != [] {
      JoinSplit(s[1..]);
      var t := Split(s[1..]);
      if s[0] != '/' && |t| > 1 {
        assert Split(s)[1..] == t[1..];
      }
    }
  }

  /** Joining parts that hold no `/` and splitting again gives the parts back. */
  lemma {:induction false} SplitJoin(parts: seq<string>)
    requires |parts| >= 1
    requires forall i :: 0 <= i < |parts| ==> '/' !in parts[i]
    ensures Split(Join(parts)) == parts
    decreases |parts|
  {
    SplitWithoutSlash(parts[0]);
    if |parts| > 1 {
      SplitJoin(parts[1..]);
      SplitAround(parts[0], Join(parts[1..]));
      assert parts == [parts[0]] + parts[1..];
    }
  }

  lemma {:induction false} NonEmptyConcat(a: seq<string>, b: seq<string>)
    ensures NonEmpty(a + b) == NonEmpty(a) + NonEmpty(b)
    decreases |a|
  {
    if a == [] {
      assert a + b == b;
    } else {
      assert (a + b)[0] == a[0] && (a + b)[1..] == a[1..] + b;
      NonEmptyConcat(a[1..], b);
    }
  }

  /** A list keeps all its parts under `NonEmpty` exactly when none of them is empty. */
  lemma {:induction false} NonEmptyIdentity(parts: seq<string>)
    ensures NonEmpty(parts) == parts <==> forall i :: 0 <= i < |parts| ==> parts[i] != ""
    decreases |parts|
  {
    if parts != [] {
      NonEmptyIdentity(parts[1..]);
      if parts[0] != "" && NonEmpty(parts) == parts {
        assert NonEmpty(parts[1..]) == parts[1..];
      }
    }
  }

  lemma SegmentsTrailingSlash(s: string)
    ensures Segments(s + "/") == Segments(s)
  {
    SplitTrailingSlash(s);
    NonEmptyConcat(Split(s), [""]);
  }

  lemma SegmentsLeadingSlash(s: string)
    ensures Segments("/" + s) == Segments(s)
  {
    assert ("/" + s)[1..] == s;
  }
}

=== FILE: wrappers.dfy ===
/** Failure-carrying results: `Option` for a missing value and `Result` for an error value. */
module Wrappers {

  datatype Option<+T> = None | Some(value: T)

  datatype Result<+R, +E> = Success(value: R) | Failure(error: E)
}
